=== FILE: README.md ===
# Task scheduler: timer, statistics and task-list logic in Dafny

This project models the logic of a single-user task scheduler. That logic
sits inside React views and one data hook. It covers:

- the time-tracking view's timer state machine, with its
  reconciliation against the stored time entries;
- the abstract time-entry store: create, stop, and the newest-first listing;
- the statistics view's aggregations;
- the task list's status filter, priority grouping and status toggle;
- the task form's validation and submission.

Everything is written as pure functions over immutable `Task` and
`TimeEntry` values:

- The timer's local state `{selectedTaskId, currentTime, isRunning, activeEntryId}`
  is a record with one transition function per event.
- A transition returns the store requests it issues as data (`EntryWrite`).
  Separate functions give the effect of those requests on a `seq<TimeEntry>`.
- Timestamps are integers in milliseconds since the epoch, in UTC.
- The current time `now` and the current day `today` are parameters.

Modules, one per source file or concern:

- `Seqs`: `Array.prototype.filter` as an order-preserving `Keep`, with
  append and partition lemmas.
- `Domain`: the `Task` and `TimeEntry` records and the duration sum.
- `JsText`: the JavaScript primitives the views rely on. These are integer
  `toString`, `padStart`, the truncating `%` and `trim`.
- `TimeEntries`: the time-entry table (`src/hooks/useTimeEntries.ts`).
- `TimeTracking`: the timer view (`src/components/TimeTrackingView.tsx`).
- `Statistics`: the statistics view (`src/components/StatisticsView.tsx`).
- `Tasks`: how a partial task update applies to a stored row. This is the
  `update(...).eq('id', id)` request of `src/hooks/useTasks.ts`, which the
  list and the form send.
- `TaskList`: the task list (`src/components/TaskList.tsx`).
- `TaskForm`: the task form (`src/components/TaskForm.tsx`).

Behaviours of the code that the model makes explicit:

- Reconciliation takes the *first* active entry of the snapshot. The snapshot
  is ordered newest start first, so that is the latest-started entry.
- Reconciliation always sets the timer running, so any snapshot with an
  active entry revives a paused timer.
- Start does not learn the new entry's id. A stop before the next snapshot
  therefore sends nothing and leaves the entry running in the store.
- A timer paused before its first tick shows the start button again. A
  second start then creates a second running entry.
- The form checks the length of the *untrimmed* title and description but
  sends them trimmed. "ab " passes validation and is sent as "ab".
- Emptying the estimate while editing leaves the stored estimate unchanged:
  the empty value is dropped from the update.

## Model

| member | source | states |
|---|---|---|
| `Seqs.Keep` | src/components/TaskList.tsx:22-25 | `filter` keeps exactly the elements that pass the predicate, each an element of the input, and is never longer than the input |
| `Seqs.KeepAppend` | src/components/TaskList.tsx:22-25 | filtering distributes over concatenation, so relative order is preserved |
| `Seqs.KeepEverything` | src/components/TaskList.tsx:23 | a filter every element passes returns the list unchanged |
| `Seqs.KeepPartition3` | src/components/TaskList.tsx:28-32 | three exclusive, exhaustive filters split a list: sizes sum to its length and the multisets add up to it |
| `Domain.TotalDurationAppend` | src/components/StatisticsView.tsx:16-18 | the duration `reduce` is additive over concatenated snapshots |
| `Domain.TotalDuration` | src/components/StatisticsView.tsx:16-18 | the summed durations are non-negative whenever every stored duration is |
| `JsText.NatToDecimal` | src/components/TimeTrackingView.tsx:45 | `toString` of a natural number is a non-empty digit string without leading zeros |
| `JsText.DecimalRoundTrip` | src/components/TimeTrackingView.tsx:45 | reading back the rendered digits gives the number |
| `JsText.SmallDecimalWidth` | src/components/TimeTrackingView.tsx:45 | a number below 100 renders with at most two digits |
| `JsText.LeadingZeros` | src/components/TimeTrackingView.tsx:45 | '0' padding in front of digits does not change their value |
| `JsText.IntToString` | src/components/StatisticsView.tsx:60 | negative integers render as '-' followed by the digits of their magnitude |
| `JsText.PadStart` | src/components/TimeTrackingView.tsx:45 | `padStart(width, fill)` gives length max(len, width), ends with the original, and is `fill` before it |
| `JsText.TruncRem` | src/components/TimeTrackingView.tsx:43-44 | JavaScript `%` agrees with the mathematical remainder for non-negative dividends and negates it for negative ones |
| `JsText.TrimStart` | src/components/TaskForm.tsx:58 | removes exactly the leading whitespace: a suffix, all whitespace before it, and it starts with non-whitespace |
| `JsText.TrimEnd` | src/components/TaskForm.tsx:58 | removes exactly the trailing whitespace: a prefix, all whitespace after it, and it ends with non-whitespace |
| `JsText.Trim` | src/components/TaskForm.tsx:58-59 | `trim()` is never longer than its input and starts and ends with non-whitespace |
| `JsText.TrimIsInfix` | src/components/TaskForm.tsx:58-59 | the trimmed text is the infix of the input that starts where leading whitespace ends |
| `JsText.TrimDropsOnlyWhitespace` | src/components/TaskForm.tsx:58-59 | everything trimming removes, on both sides, is whitespace |
| `JsText.TrimEmptyIffBlank` | src/components/TaskForm.tsx:30 | `!s.trim()` holds exactly when the string is all whitespace |
| `TimeEntries.CreateEntry` | src/hooks/useTimeEntries.ts:46-58 | no signed-in user gives an error and no insert; otherwise one row is appended with the task, start time, user id, `is_active` and no end time, and the old rows are kept |
| `TimeEntries.Stopped` | src/hooks/useTimeEntries.ts:81-85 | the stopped row is inactive, ends at `now`, carries the supplied duration and keeps id, user, task and start |
| `TimeEntries.StopMatching` | src/hooks/useTimeEntries.ts:86 | rows with the id are stopped, all others are unchanged, and the length is kept |
| `TimeEntries.StopEntry` | src/hooks/useTimeEntries.ts:78-91 | fails exactly when no row has the id. Otherwise the matching row gets inactive, `end_time = now` and the caller's duration, even if already stopped, with every other column (id, user, task, start) kept. Every other row is unchanged |
| `TimeEntries.CreateKeepsIdsUnique` | src/hooks/useTimeEntries.ts:50-58 | inserting under a fresh id keeps row ids unique |
| `TimeEntries.CreateAddsActiveEntry` | src/hooks/useTimeEntries.ts:52-56 | every successful create adds exactly one running entry, whatever is already running |
| `TimeEntries.StopRemovesActiveEntry` | src/hooks/useTimeEntries.ts:79-86 | stopping a running entry with a unique id removes exactly one running entry |
| `TimeEntries.InsertByStartDesc` | src/hooks/useTimeEntries.ts:30 | insertion into a newest-first list keeps it sorted and adds exactly the new entry |
| `TimeEntries.SortByStartDesc` | src/hooks/useTimeEntries.ts:30 | the result is ordered by start time, newest first, and is a permutation of the input |
| `TimeEntries.InsertKeepsTies` | src/components/TimeTrackingView.tsx:183 | inserting an entry puts it ahead of the entries that share its start time, and leaves their order alone |
| `TimeEntries.SortIsStable` | src/components/TimeTrackingView.tsx:183 | the sort is stable, as `Array.prototype.sort` is: entries with equal start times keep their relative order |
| `TimeEntries.List` | src/hooks/useTimeEntries.ts:27-30 | the listing holds exactly the table's rows, newest start first |
| `TimeTracking.FirstActiveIndex` | src/components/TimeTrackingView.tsx:17 | `find` returns the first active entry's index, or nothing exactly when no entry is active |
| `TimeTracking.Reconcile` | src/components/TimeTrackingView.tsx:16-29 | with no active entry the state is unchanged. Otherwise the first active entry supplies the entry id and task, the timer runs, and the clock is the floor of elapsed ms / 1000 |
| `TimeTracking.ReconcileTakesLatestActive` | src/components/TimeTrackingView.tsx:17 | on a newest-first snapshot the adopted entry started no earlier than any other active entry |
| `TimeTracking.Tick` | src/components/TimeTrackingView.tsx:31-39 | a tick adds 1 to the clock while running and changes nothing otherwise |
| `TimeTracking.Ticks` | src/components/TimeTrackingView.tsx:31-39 | ticks never start or stop the timer, and a paused timer ignores them all |
| `TimeTracking.TicksCount` | src/components/TimeTrackingView.tsx:33-36 | n ticks advance the clock by n while running, by 0 while paused, and change no other field |
| `TimeTracking.Start` | src/components/TimeTrackingView.tsx:48-59 | with no task chosen, no write and no change. Otherwise exactly one create for that task at `now`, running from 0, with `activeEntryId` untouched |
| `TimeTracking.Stop` | src/components/TimeTrackingView.tsx:61-68 | a stop write with duration = clock happens exactly when a non-empty entry id is known. The state is always cleared to not running, 0 and no id |
| `TimeTracking.StopTwiceWritesOnce` | src/components/TimeTrackingView.tsx:62-67 | a second stop sends nothing and changes nothing |
| `TimeTracking.Pause` | src/components/TimeTrackingView.tsx:70-72 | pause clears `isRunning` and changes no other field |
| `TimeTracking.Resume` | src/components/TimeTrackingView.tsx:74-76 | resume sets `isRunning` and changes no other field |
| `TimeTracking.PauseResumeRoundTrip` | src/components/TimeTrackingView.tsx:70-76 | pausing and resuming a running timer restores its exact state |
| `TimeTracking.ActiveTasks` | src/components/TimeTrackingView.tsx:87 | the picker offers exactly the tasks that are not completed |
| `TimeTracking.ActiveTasksAppend` | src/components/TimeTrackingView.tsx:87 | the offered tasks of a list split in two are those of the first part followed by those of the second, so list order and multiplicity are kept |
| `TimeTracking.ActiveTasksSingleton` | src/components/TimeTrackingView.tsx:87 | a single task is offered once when not completed and not at all when completed |
| `TimeTracking.Select` | src/components/TimeTrackingView.tsx:116-132 | picking a task changes only the selection, and only when the timer is stopped and the task is offered |
| `TimeTracking.SelectEnablesStart` | src/components/TimeTrackingView.tsx:116-139 | choosing an offered task on an idle timer shows the start button, enabled exactly when the id is non-empty, and the following start creates an entry for that task |
| `TimeTracking.ControlsFor` | src/components/TimeTrackingView.tsx:135-171 | the start button shows exactly when not running with clock 0, and is enabled exactly when a task is chosen. Pause shows exactly while running |
| `TimeTracking.StopShowsStartButton` | src/components/TimeTrackingView.tsx:135-138 | after any stop the start button is shown |
| `TimeTracking.Step` | src/components/TimeTrackingView.tsx:16-76 | each event is handled by its operation: a snapshot by `Reconcile`, a tick by `Tick`, start by `Start`, stop by `Stop`, pause, resume and a selection by `Pause`, `Resume` and `Select`. Only start and stop write, at most once, and tick/pause/resume/select keep the entry id |
| `TimeTracking.Run` | src/components/TimeTrackingView.tsx:16-76 | a run of events issues at most one write per event |
| `TimeTracking.RunCons` | src/components/TimeTrackingView.tsx:16-76 | a run is its first event followed by the rest, from the state the first event leaves, with the requests concatenated |
| `TimeTracking.RunAppend` | src/components/TimeTrackingView.tsx:16-76 | two stretches of events run one after the other: the second starts where the first ends, and the requests are concatenated |
| `TimeTracking.RunTicks` | src/components/TimeTrackingView.tsx:31-39 | n interval firings through the event loop are n clock ticks and send nothing |
| `TimeTracking.TicksAroundPause` | src/components/TimeTrackingView.tsx:31-39 | a running timer through n ticks, pause, resume and m ticks sends nothing and gains exactly n + m seconds |
| `TimeTracking.PausedTicksDoNotCount` | src/components/TimeTrackingView.tsx:31-39 | a running timer paused for n interval periods and resumed for m sends nothing and gains exactly m seconds |
| `TimeTracking.IgnoredEvents` | src/components/TimeTrackingView.tsx:16-29 | a snapshot without a running entry leaves the timer as it is, and a selection while running changes nothing, inside the loop |
| `TimeTracking.PickStartTickStopWritesOnlyCreate` | src/components/TimeTrackingView.tsx:48-68 | from mount, choose, start, tick, stop sends only the create and leaves an idle timer with the task still chosen |
| `TimeTracking.OpenSession` | src/components/TimeTrackingView.tsx:16-59 | from mount, choose, start and the snapshot with a first running entry send the create and leave the timer running on that entry with the elapsed whole seconds |
| `TimeTracking.TrackedSessionBeforeStop` | src/components/TimeTrackingView.tsx:16-76 | the session through ticks, pause and resume has sent only the create, and the clock shows the snapshot's elapsed seconds plus every counted tick |
| `TimeTracking.TrackedSessionSendsElapsed` | src/components/TimeTrackingView.tsx:16-76 | a whole session through the event loop sends exactly the create and then a stop of the snapshot's entry with the elapsed seconds plus n + m ticks |
| `TimeTracking.TaskEntries` | src/components/TimeTrackingView.tsx:78-80 | exactly the stopped entries of the task |
| `TimeTracking.TaskTotal` | src/components/TimeTrackingView.tsx:82-85 | a task's total is non-negative whenever every stored duration is; its value is pinned by `TaskTotalCons` |
| `TimeTracking.TaskTotalAppend` | src/components/TimeTrackingView.tsx:82-85 | a task's total is additive over concatenated snapshots |
| `TimeTracking.TaskTotalCons` | src/components/TimeTrackingView.tsx:78-85 | an entry adds its duration to its task's total only when stopped; a running entry adds nothing |
| `TimeTracking.StopAddsToTaskTotal` | src/hooks/useTimeEntries.ts:79-86 | stopping a running entry adds the sent duration to its task's total and leaves other tasks' totals unchanged |
| `TimeTracking.ClockFields` | src/components/TimeTrackingView.tsx:41-44 | for s >= 0, h*3600 + m*60 + sec = s with 0 <= m, sec < 60 |
| `JsText.ZeroPaddedValue` | src/components/TimeTrackingView.tsx:45 | padding a rendered number with '0' on the left keeps it a digit string with the same value |
| `TimeTracking.Pad2` | src/components/TimeTrackingView.tsx:45 | a padded field is exactly two characters when the number renders shorter, else the rendering's length; for n >= 0 it is digits whose value is n |
| `TimeTracking.FormatClock` | src/components/TimeTrackingView.tsx:41-46 | `HH:MM:SS` from the three padded fields; what it promises is stated by `ClockRoundTrip` |
| `TimeTracking.ClockRoundTrip` | src/components/TimeTrackingView.tsx:41-46 | `HH:MM:SS` of s >= 0 is at least 8 characters, exactly 8 below 100 hours, and parses back to s |
| `TimeTracking.ClockWidth` | src/components/TimeTrackingView.tsx:41-46 | below 100 hours every field is two characters, so the clock is exactly 8 |
| `TimeTracking.History` | src/components/TimeTrackingView.tsx:181-183 | a permutation of exactly the stopped entries, ordered newest start first |
| `TimeTracking.HistoryKeepsTies` | src/components/TimeTrackingView.tsx:182-183 | stopped entries with the same start time appear in snapshot order, so the ten shown are fully determined |
| `TimeTracking.RecentEntries` | src/components/TimeTrackingView.tsx:181-184 | the first min(10, #stopped) entries of the newest-first history |
| `TimeTracking.ShowsNoHistory` | src/components/TimeTrackingView.tsx:207 | the "no entries" message shows exactly when the recent list is empty, i.e. when no entry is stopped |
| `TimeTracking.StopBeforeSnapshotLeavesEntryRunning` | src/components/TimeTrackingView.tsx:48-68 | start then stop before a snapshot sends only the create. The store gains a running entry, and the next snapshot sets the timer running again |
| `TimeTracking.PausedAtZeroStartsTwice` | src/components/TimeTrackingView.tsx:135 | a timer paused at 0 shows an enabled start button, and two starts leave two more running entries |
| `TimeTracking.SnapshotRevivesPausedTimer` | src/components/TimeTrackingView.tsx:21-27 | a snapshot with an active entry restarts a paused timer with the clock recomputed from the entry's start |
| `TimeTracking.ReconcileThenStopSendsElapsed` | src/components/TimeTrackingView.tsx:24-27 | a timer adopted from a snapshot and stopped at `now` sends the elapsed whole seconds |
| `TimeTracking.ListedRow` | src/hooks/useTimeEntries.ts:29-30 | every entry of a listing is a row of the table |
| `TimeTracking.ReconcileThenStopRecordsElapsed` | src/components/TimeTrackingView.tsx:61-64 | end to end: adopting and stopping an entry makes the store stop it and adds the elapsed seconds to its task's total |
| `Statistics.CountStatus` | src/components/StatisticsView.tsx:11-13 | a status count is at most the number of tasks; its value is pinned by `CountStatusCons` |
| `Statistics.CountPriority` | src/components/StatisticsView.tsx:21-25 | a priority count is at most the number of tasks; its value is pinned by `CountPriorityCons` |
| `Statistics.CountStatusCons` | src/components/StatisticsView.tsx:11-13 | one more task adds 1 to a status count exactly when it has that status |
| `Statistics.CountPriorityCons` | src/components/StatisticsView.tsx:21-25 | one more task adds 1 to a priority count exactly when it has that priority |
| `Statistics.StatusCountsSum` | src/components/StatisticsView.tsx:10-13 | todo + in progress + completed = total |
| `Statistics.PriorityCountsSum` | src/components/StatisticsView.tsx:21-25 | high + medium + low = total |
| `Statistics.TotalTimeSpent` | src/components/StatisticsView.tsx:16-18 | the time tracked is non-negative whenever every stored duration is; its value is pinned by `TotalTimeSpentCons` |
| `Statistics.TotalTimeSpentCons` | src/components/StatisticsView.tsx:16-18 | an entry adds its duration to the time tracked only when stopped |
| `Statistics.SumOverCoveringIds` | src/components/StatisticsView.tsx:16-18 | per-task totals summed over distinct ids that cover every entry give the overall total |
| `Statistics.TotalIsSumOfTaskTotals` | src/components/StatisticsView.tsx:16-18 | "time tracked" equals the sum of the timer view's per-task totals over the snapshot's tasks |
| `Statistics.StartDay` | src/components/StatisticsView.tsx:44 | an entry's day is the UTC day containing its start instant |
| `Statistics.DaySeconds` | src/components/StatisticsView.tsx:43-46 | a day's seconds are non-negative whenever every stored duration is; the value is pinned by `DaySecondsCons` |
| `Statistics.DaySecondsCons` | src/components/StatisticsView.tsx:43-46 | an entry counts toward its start day only, with its whole duration; running entries count toward no day |
| `Statistics.RoundMinutes` | src/components/StatisticsView.tsx:46-50 | `Math.round(s / 60)`: 60m - 30 <= s < 60m + 30 |
| `Statistics.TrackingSeries` | src/components/StatisticsView.tsx:35-53 | seven buckets for consecutive days, oldest first, the last one today, each with the rounded minutes of its day |
| `Statistics.SeriesOfOneMoreEntry` | src/components/StatisticsView.tsx:42-51 | adding an entry changes a bucket only by that entry's duration, and only for its start day |
| `Statistics.CompletionRate` | src/components/StatisticsView.tsx:192 | 0 without tasks; otherwise the nearest whole percentage of completed tasks, halves up, within 0..100 |
| `Statistics.RoundedPercent` | src/components/StatisticsView.tsx:192 | (2r-1)·whole <= 200·part < (2r+1)·whole and 0 <= r <= 100 |
| `Statistics.MostCommonPriority` | src/components/StatisticsView.tsx:204 | the result has the largest count, and every priority before it in High, Medium, Low order has a strictly smaller count |
| `Statistics.RealRem` | src/components/StatisticsView.tsx:59 | JavaScript `%` on a non-negative number lands in [0, d) |
| `Statistics.HoursMinutes` | src/components/StatisticsView.tsx:57-60 | non-negative hours and minutes in 0..59 for non-negative seconds |
| `Statistics.HoursMinutesOfWholeSeconds` | src/components/StatisticsView.tsx:57-60 | for whole seconds n >= 0 the fields are n div 3600 and (n mod 3600) div 60 |
| `Statistics.FormatHoursMinutes` | src/components/StatisticsView.tsx:57-61 | `<hours>h <minutes>m` from `HoursMinutes`; for whole non-negative seconds the text is stated by `FormatWholeSeconds` |
| `Statistics.FormatWholeSeconds` | src/components/StatisticsView.tsx:57-61 | for whole seconds n >= 0 the label reads `<n div 3600>h <(n mod 3600) div 60>m` |
| `Statistics.HoursMinutesOfFloor` | src/components/StatisticsView.tsx:57-60 | only the whole part of a non-negative number of seconds matters |
| `Statistics.AverageIsIntegerDivision` | src/components/StatisticsView.tsx:198 | the fractional quotient total/completed shows the same as the integer quotient |
| `Statistics.AverageTimeLabel` | src/components/StatisticsView.tsx:198 | "0h 0m" when no task is completed |
| `Statistics.TimeTrackedLabel` | src/components/StatisticsView.tsx:115-116 | the "Time Tracked" card formats the overall total; its text is stated by `TimeTrackedLabelOfTotal` |
| `Statistics.TimeTrackedLabelOfTotal` | src/components/StatisticsView.tsx:115-116 | with non-negative durations the card reads `<T div 3600>h <(T mod 3600) div 60>m` for the tracked total T |
| `Statistics.AverageLabelIsQuotient` | src/components/StatisticsView.tsx:198 | with completed tasks, the average shows total div completed as "Xh Ym" |
| `Statistics.NegativeAverageMinutes` | src/components/StatisticsView.tsx:57-60 | for negative seconds the minutes follow the truncating `%`: -3599.5 s gives (-1, -60) and -3600 s gives (-1, 0) |
| `Tasks.Apply` | src/hooks/useTasks.ts:89-95 | each field present in the update replaces the stored value, each absent field keeps it, and id, owner and creation time never change |
| `Tasks.ApplyNoChange` | src/hooks/useTasks.ts:89-95 | an empty update leaves the row unchanged |
| `Tasks.ApplyIdempotent` | src/hooks/useTasks.ts:89-95 | sending the same update twice is the same as sending it once |
| `Tasks.UpdateTasks` | src/hooks/useTasks.ts:89-97 | fails exactly when no row has the id; otherwise rows with that id are updated and the rest unchanged |
| `TaskList.FilterTasks` | src/components/TaskList.tsx:22-25 | every kept task passes the filter, and under a status filter every task with that status is kept |
| `TaskList.FilterAllIsIdentity` | src/components/TaskList.tsx:23 | the 'all' filter returns the list unchanged |
| `TaskList.FilterKeepsOrder` | src/components/TaskList.tsx:22-25 | filtering preserves relative order |
| `TaskList.StatusFiltersPartition` | src/components/TaskList.tsx:22-25 | the three status filters' results sum to the whole list |
| `TaskList.GroupByPriority` | src/components/TaskList.tsx:28-32 | each group holds only tasks of its priority |
| `TaskList.GroupsPartition` | src/components/TaskList.tsx:28-32 | the groups partition the filtered list, with the same multiset of tasks |
| `TaskList.GroupsKeepOrder` | src/components/TaskList.tsx:28-32 | grouping preserves list order within each group |
| `TaskList.RenderedSections` | src/components/TaskList.tsx:245-247 | a section is drawn exactly for each non-empty group and carries that group's tasks, in the order high, medium, low |
| `TaskList.EmptyStateIffNoSections` | src/components/TaskList.tsx:249 | the empty state shows exactly when no group is drawn |
| `TaskList.ShowsEmptyState` | src/components/TaskList.tsx:249 | "no tasks found" when the filter leaves nothing; `EmptyStateIffNoSections` states that this is exactly when no section is drawn |
| `TaskList.NextStatus` | src/components/TaskList.tsx:56-64 | a toggle always changes the status |
| `TaskList.ThreeTogglesReturn` | src/components/TaskList.tsx:56-64 | three toggles return to the original status |
| `TaskList.ToggleUpdate` | src/components/TaskList.tsx:66-72 | the update sets the next status, and sets `completed_at` to the click time `now` when that status is completed, to null otherwise. It carries no other field |
| `TaskList.ToggleKeepsCompletionConsistent` | src/components/TaskList.tsx:66-72 | after a toggle, `completed_at` is the click time when completed and null otherwise, and only status and `completed_at` changed |
| `TaskList.ToggleTouchesOnlyThatTask` | src/components/TaskList.tsx:66-72 | toggling a listed task updates it and leaves every other task unchanged |
| `TaskForm.InitialForm` | src/components/TaskForm.tsx:19-24 | a new form is empty with medium priority; an edit form shows the task's title, priority, description (or "") and its estimate rendered by `toString` (or "") |
| `TaskForm.TextProblemOf` | src/components/TaskForm.tsx:30-40 | blank exactly when all whitespace; too short exactly when not blank and the untrimmed length is below the minimum |
| `TaskForm.Validate` | src/components/TaskForm.tsx:27-48 | one message per failing field; which fields fail and with what message is stated by `TitleValidation`, `DescriptionValidation` and `EstimateValidation` |
| `TaskForm.TitleValidation` | src/components/TaskForm.tsx:30-34 | the title error is present exactly when blank or shorter than 3 untrimmed, with "required" before "too short" |
| `TaskForm.DescriptionValidation` | src/components/TaskForm.tsx:36-40 | the description error is present exactly when blank or shorter than 10 untrimmed, with "required" before "too short" |
| `TaskForm.EstimateValidation` | src/components/TaskForm.tsx:42-44 | the estimate error is present exactly when typed and either not a number or not positive |
| `TaskForm.IsValid` | src/components/TaskForm.tsx:46-47 | valid means an empty error map; `ValidIffAcceptable` states it field by field |
| `TaskForm.ValidIffAcceptable` | src/components/TaskForm.tsx:46-47 | the error map is empty exactly when the form meets the field-by-field acceptance conditions |
| `TaskForm.Payload` | src/components/TaskForm.tsx:57-62 | the data sent is the trimmed title and description, the priority, and the parsed estimate only when one was typed |
| `TaskForm.Submit` | src/components/TaskForm.tsx:50-74 | an invalid form sends nothing and shows exactly the `validateForm` errors. A valid one sends exactly one request: a create of the payload when new; otherwise an update of the edited task's id with the payload's title, description, priority and estimate, and no status or completion time |
| `TaskForm.SubmittedDataIsClean` | src/components/TaskForm.tsx:57-69 | what an accepted submit sends is the trimmed title and description, non-empty with no whitespace at either end; an estimate is sent exactly when typed, and is positive |
| `TaskForm.ShortTitleAfterTrim` | src/components/TaskForm.tsx:30-34 | "ab " passes validation and is sent as the 2-character title "ab" |
| `TaskForm.EmptiedEstimateIsKept` | src/components/TaskForm.tsx:61-68 | saving an edit with an empty estimate keeps the stored estimate |
| `TaskForm.ResubmitUnchanged` | src/components/TaskForm.tsx:19-24 | saving an edit form unchanged keeps the estimate and status and sends the trimmed title |

## Left out

- Rendering, styling, icons and charts. Only the data the views compute is modelled: which buttons show, the sections drawn, the chart buckets and the labels.
- The network, the query cache and its invalidation, and the toasts. The store is a `seq<TimeEntry>`. A request's effect is a function on it, and the failure cases are `Err`/`None` results.
- Concurrency between requests and snapshots. Interleavings are expressed as explicit sequences of events and store operations in the scenario lemmas.
- The interval timer. Each tick is an event. The timer view's loading spinner is also left out.
- `Date.now()` and `new Date()`: they are the parameters `now` (ms) and `today` (a UTC day number).
- Time zones. The chart's day labels are built from local dates turned into ISO (UTC) dates. The model takes the UTC day of an entry's start and the seven UTC days ending at `today`. Daylight-saving shifts and the weekday labels are not modelled.
- ISO-8601 strings. Timestamps are integers throughout.
- The `created_at`/`updated_at` columns of time entries and a task's `updated_at`. The code never reads them; a database trigger may change them, and that is not modelled.
- Tie-breaking among rows with equal `start_time`. The database promises no order, and `TimeEntries.List` picks one admissible order. `ReconcileThenStopRecordsElapsed` holds for every order.
- `Number(...)` parsing and `Number.prototype.toString` on fractional numbers. They are the parameters `numberOf` and `numberToString`. Floating point is replaced by exact integers and reals; rounding artefacts of `/ 60`, `/ 3600` and `* 100` are not modelled.
- JavaScript string length counts UTF-16 code units; here a `char` is one character, so strings with characters outside the Basic Multilingual Plane are measured differently.
- Task create and delete, task listing order, and row-level access control. They are database plumbing outside the modelled views.
- Task and entry ids are assumed unique where a lemma needs it (`UniqueIds`), as primary keys are.
- `TimeTracking.ClockFields`: states the decomposition only for non-negative seconds; for negative seconds (possible under clock skew) the fields are computed as the code does, but no property is claimed.
- `TimeTracking.Pad2`: states digit content only for non-negative fields.
- `Statistics.HoursMinutes`: bounds are stated only for non-negative seconds.
- `Statistics.RealRem`: the range is stated only for non-negative dividends.
- `Statistics.AverageLabelIsQuotient`: assumes the tracked total is non-negative. For a negative total the hours still equal the floored quotient, but the minutes come from JavaScript's truncating `%` on the unrounded quotient: a total of -7199 over 2 completed tasks gives `HoursMinutes(-3599.5) == (-1, -60)`, while the integer quotient -3600 gives `(-1, 0)` (`NegativeAverageMinutes`).
- `TimeEntries.CreateEntry`: the insert sends no duration, so the new row's duration of 0 is the table's column default. That default is an assumption about the database schema, which is not part of this model.
- `TimeTracking.Run`: its own contract bounds only the number of writes; `RunCons` and `RunAppend` state how it composes from `Step`, and the scenario lemmas state what concrete event sequences send.
- `Statistics.AverageTimeLabel`: its own contract covers the no-completed case; the other case is `AverageLabelIsQuotient`.

=== FILE: domain.dfy ===
/** The records the application stores: tasks and time entries.
    Timestamps are milliseconds since the Unix epoch (UTC); the ISO-8601
    strings the store exchanges are not modelled. */
module Domain {

  datatype Option<T> = None | Some(value: T)

  /** Identifiers (UUIDs in the store) and user ids. */
  type Id = string

  datatype Priority = Low | Medium | High

  datatype Status = Todo | InProgress | Completed

  /** A task. `estimatedTime` is in minutes and, like every JavaScript number,
      may be fractional; `description` may be null in the store. */
  datatype Task = Task(
    id: Id,
    userId: Id,
    title: string,
    description: Option<string>,
    priority: Priority,
    status: Status,
    estimatedTime: Option<real>,
    createdAt: int,
    updatedAt: int,
    completedAt: Option<int>)

  /** A time entry: one timed session against a task. `duration` is in
      seconds; an entry with `isActive` is a timer that has not been stopped. */
  datatype TimeEntry = TimeEntry(
    id: Id,
    userId: Id,
    taskId: Id,
    startTime: int,
    endTime: Option<int>,
    duration: int,
    isActive: bool)

  /** The intended task invariant: a completion time is recorded exactly when
      the task is completed. */
  predicate CompletionConsistent(t: Task) {
    t.completedAt.Some? <==> t.status == Completed
  }

  /** The order the views list priorities in: High, Medium, Low. */
  function Rank(p: Priority): nat {
    match p
    case High => 0
    case Medium => 1
    case Low => 2
  }

  /** The task filters `t => t.status === s` and `t => t.priority === p`. */
  function HasStatus(s: Status): Task -> bool {
    (t: Task) => t.status == s
  }

  function HasPriority(p: Priority): Task -> bool {
    (t: Task) => t.priority == p
  }

  /** A running time entry, and a stopped one. */
  predicate Active(e: TimeEntry) {
    e.isActive
  }

  predicate Inactive(e: TimeEntry) {
    !Active(e)
  }

  /** Every stored duration is at least 0, as it is whenever the clock that
      produced it never ran backwards. */
  predicate NonNegativeDurations(entries: seq<TimeEntry>) {
    forall i :: 0 <= i < |entries| ==> entries[i].duration >= 0
  }

  /** Sum of `duration` over a sequence of entries (the `reduce` the views use). */
  function TotalDuration(entries: seq<TimeEntry>): (r: int)
    ensures NonNegativeDurations(entries) ==> r >= 0
    decreases |entries|
  {
    if |entries| == 0 then 0 else entries[0].duration + TotalDuration(entries[1..])
  }

  lemma {:induction false} TotalDurationAppend(a: seq<TimeEntry>, b: seq<TimeEntry>)
    ensures TotalDuration(a + b) == TotalDuration(a) + TotalDuration(b)
    decreases |a|
  {
    if |a| == 0 {
      assert a + b == b;
    } else {
      assert (a + b)[1..] == a[1..] + b;
      TotalDurationAppend(a[1..], b);
    }
  }
}

=== FILE: js_text.dfy ===
/** The JavaScript string and number primitives the views rely on:
    integer `toString`, `padStart`, the truncating `%` operator and `trim`.
    A JavaScript string is modelled as a sequence of `char`s, one per character
    (not per UTF-16 code unit). */
module JsText {

  predicate IsDigit(c: char) {
    '0' <= c <= '9'
  }

  predicate AllDigits(s: string) {
    forall i :: 0 <= i < |s| ==> IsDigit(s[i])
  }

  function DigitChar(d: nat): (c: char)
    requires d < 10
    ensures IsDigit(c) && c as int - '0' as int == d
  {
    ('0' as int + d) as char
  }

  function DigitValue(c: char): (d: nat)
    requires IsDigit(c)
    ensures d < 10 && DigitChar(d) == c
  {
    c as int - '0' as int
  }

  /** Decimal rendering of a natural number, without leading zeros: what
      `Number.prototype.toString()` gives for a non-negative integer. */
  function NatToDecimal(n: nat): (s: string)
    ensures 1 <= |s|
    ensures AllDigits(s)
    ensures |s| > 1 ==> s[0] != '0'
    decreases n
  {
    if n < 10 then [DigitChar(n)] else NatToDecimal(n / 10) + [DigitChar(n % 10)]
  }

  /** The value of a string of decimal digits (leading zeros allowed). */
  function DecimalValue(s: string): int
    decreases |s|
  {
    if |s| == 0 then 0 else 10 * DecimalValue(s[..|s| - 1]) + (s[|s| - 1] as int - '0' as int)
  }

  /** Reading back a rendered number gives the number. */
  lemma {:induction false} DecimalRoundTrip(n: nat)
    ensures DecimalValue(NatToDecimal(n)) == n
    decreases n
  {
    if n >= 10 {
      var s := NatToDecimal(n);
      assert s[..|s| - 1] == NatToDecimal(n / 10);
      DecimalRoundTrip(n / 10);
    }
  }

  /** Leading zeros do not change the value of a digit string. */
  lemma {:induction false} LeadingZeros(z: string, s: string)
    requires forall i :: 0 <= i < |z| ==> z[i] == '0'
    requires AllDigits(s)
    ensures AllDigits(z + s)
    ensures DecimalValue(z + s) == DecimalValue(s)
    decreases |s|
  {
    if |s| == 0 {
      assert z + s == z;
      AllZeros(z);
    } else {
      assert (z + s)[..|z + s| - 1] == z + s[..|s| - 1];
      LeadingZeros(z, s[..|s| - 1]);
    }
  }

  lemma {:induction false} AllZeros(z: string)
    requires forall i :: 0 <= i < |z| ==> z[i] == '0'
    ensures AllDigits(z) && DecimalValue(z) == 0
    decreases |z|
  {
    if |z| > 0 {
      AllZeros(z[..|z| - 1]);
    }
  }

  /** `Number.prototype.toString()` for an integer: a minus sign for negative
      values, then the decimal digits. */
  /** Numbers below 100 render with at most two digits. */
  lemma SmallDecimalWidth(n: nat)
    requires n < 100
    ensures |NatToDecimal(n)| <= 2
  {
    if n >= 10 {
      assert NatToDecimal(n) == NatToDecimal(n / 10) + [DigitChar(n % 10)];
    }
  }

  function IntToString(n: int): (s: string)
    ensures n >= 0 ==> s == NatToDecimal(n)
    ensures n < 0 ==> |s| >= 2 && s[0] == '-' && s[1..] == NatToDecimal(-n)
  {
    if n < 0 then "-" + NatToDecimal(-n) else NatToDecimal(n)
  }

  /** `s.padStart(width, fill)`: prefix copies of `fill` until `s` is at
      least `width` long. */
  function PadStart(s: string, width: nat, fill: char): (r: string)
    ensures |r| == if |s| >= width then |s| else width
    ensures r[|r| - |s|..] == s
    ensures forall i :: 0 <= i < |r| - |s| ==> r[i] == fill
  {
    if |s| >= width then s else seq(width - |s|, _ => fill) + s
  }

  /** Left-padding a rendered number with '0' keeps it a digit string of
      the same value. */
  lemma ZeroPaddedValue(n: nat, width: nat)
    ensures AllDigits(PadStart(NatToDecimal(n), width, '0'))
    ensures DecimalValue(PadStart(NatToDecimal(n), width, '0')) == n
  {
    var d := NatToDecimal(n);
    var r := PadStart(d, width, '0');
    DecimalRoundTrip(n);
    assert r == r[..|r| - |d|] + d;
    LeadingZeros(r[..|r| - |d|], d);
  }

  /** JavaScript's `a % b` for a positive divisor: the remainder takes the
      sign of the dividend, because JavaScript division truncates toward zero,
      so negating the dividend negates the remainder. */
  function TruncRem(a: int, b: int): (r: int)
    requires b > 0
    ensures a >= 0 ==> 0 <= r < b && r == a % b
    ensures a < 0 ==> -b < r <= 0 && -r == (-a) % b
  {
    if a >= 0 then a % b else -((-a) % b)
  }

  /** The characters `String.prototype.trim` removes: ECMAScript
      WhiteSpace and LineTerminator code points. */
  predicate IsWhitespace(c: char) {
    || c == ' ' || c == '\t' || c == '\n' || c == '\r'
    || c as int == 0x0B || c as int == 0x0C || c as int == 0xA0
    || c as int == 0x1680 || (0x2000 <= c as int <= 0x200A)
    || c as int == 0x2028 || c as int == 0x2029 || c as int == 0x202F
    || c as int == 0x205F || c as int == 0x3000 || c as int == 0xFEFF
  }

  predicate AllWhitespace(s: string) {
    forall i :: 0 <= i < |s| ==> IsWhitespace(s[i])
  }

  /** `s` with its leading whitespace removed. */
  function TrimStart(s: string): (r: string)
    ensures |r| <= |s| && r == s[|s| - |r|..]
    ensures AllWhitespace(s[..|s| - |r|])
    ensures |r| > 0 ==> !IsWhitespace(r[0])
    decreases |s|
  {
    if |s| > 0 && IsWhitespace(s[0]) then TrimStart(s[1..]) else s
  }

  /** `s` with its trailing whitespace removed. */
  function TrimEnd(s: string): (r: string)
    ensures |r| <= |s| && r == s[..|r|]
    ensures AllWhitespace(s[|r|..])
    ensures |r| > 0 ==> !IsWhitespace(r[|r| - 1])
    decreases |s|
  {
    if |s| > 0 && IsWhitespace(s[|s| - 1]) then TrimEnd(s[..|s| - 1]) else s
  }

  /** `String.prototype.trim`: whitespace dropped at both ends. */
  function Trim(s: string): (r: string)
    ensures |r| <= |s|
    ensures |r| > 0 ==> !IsWhitespace(r[0]) && !IsWhitespace(r[|r| - 1])
  {
    TrimEnd(TrimStart(s))
  }

  /** The trimmed string is the infix of `s` that starts at offset
      `|s| - |TrimStart(s)|`. */
  lemma TrimIsInfix(s: string)
    ensures |s| - |TrimStart(s)| + |Trim(s)| <= |s|
    ensures Trim(s) == s[|s| - |TrimStart(s)|..|s| - |TrimStart(s)| + |Trim(s)|]
  {
    var t := TrimStart(s);
    var k := |s| - |t|;
    assert t == s[k..];
    var r := TrimEnd(t);
    assert r == t[..|r|];
    SliceOfSuffix(s, k, |r|);
    assert Trim(s) == r;
  }

  /** What trimming removes is whitespace, on both sides. */
  lemma TrimDropsOnlyWhitespace(s: string)
    ensures |s| - |TrimStart(s)| + |Trim(s)| <= |s|
    ensures AllWhitespace(s[..|s| - |TrimStart(s)|])
    ensures AllWhitespace(s[|s| - |TrimStart(s)| + |Trim(s)|..])
  {
    var t := TrimStart(s);
    var k := |s| - |t|;
    assert t == s[k..];
    var r := TrimEnd(t);
    assert AllWhitespace(t[|r|..]);
    SliceOfSuffix(s, k, |r|);
    assert Trim(s) == r;
  }

  /** Slicing a suffix of `s` is slicing `s` further on. */
  lemma SliceOfSuffix(s: string, k: nat, n: nat)
    requires k + n <= |s|
    ensures s[k..][..n] == s[k..k + n]
    ensures s[k..][n..] == s[k + n..]
  {
  }

  /** A string trims to the empty string exactly when it is all whitespace
      (so `!s.trim()` is JavaScript's test for a blank field). */
  lemma TrimEmptyIffBlank(s: string)
    ensures Trim(s) == [] <==> AllWhitespace(s)
  {
    var t := TrimStart(s);
    var k := |s| - |t|;
    if Trim(s) == [] {
      assert AllWhitespace(t[0..]);
      assert |t| == 0;
      assert s[..k] == s;
    } else {
      var r := Trim(s);
      assert r[0] == t[0] == s[k];
    }
  }
}

=== FILE: seqs.dfy ===
/** Order-preserving filtering of sequences: the model of JavaScript's
    `Array.prototype.filter`, which every view of the application uses. */
module Seqs {

  /** The elements of `s` that satisfy `p`, in their original order. */
  function Keep<T>(s: seq<T>, p: T -> bool): (r: seq<T>)
    ensures |r| <= |s|
    ensures forall i :: 0 <= i < |r| ==> r[i] in s && p(r[i])
    ensures forall i :: 0 <= i < |s| && p(s[i]) ==> s[i] in r
    decreases |s|
  {
    if |s| == 0 then [] else (if p(s[0]) then [s[0]] else []) + Keep(s[1..], p)
  }

  /** Filtering distributes over concatenation; together with `KeepSingleton`
      this characterises `Keep` as "the same elements, in the same order". */
  lemma {:induction false} KeepAppend<T>(a: seq<T>, b: seq<T>, p: T -> bool)
    ensures Keep(a + b, p) == Keep(a, p) + Keep(b, p)
    decreases |a|
  {
    if |a| == 0 {
      assert a + b == b;
    } else {
      assert (a + b)[1..] == a[1..] + b;
      KeepAppend(a[1..], b, p);
    }
  }

  /** A one-element sequence is kept whole or dropped. */
  lemma KeepSingleton<T>(x: T, p: T -> bool)
    ensures Keep([x], p) == if p(x) then [x] else []
  {
  }

  /** A filter that every element passes keeps the sequence as it is. */
  lemma {:induction false} KeepEverything<T>(s: seq<T>, p: T -> bool)
    requires forall i :: 0 <= i < |s| ==> p(s[i])
    ensures Keep(s, p) == s
    decreases |s|
  {
    if |s| > 0 {
      KeepEverything(s[1..], p);
    }
  }

  /** Concatenation is associative; stated once so that proofs can name the
      regrouping instead of re-deriving it element by element. */
  lemma AppendAssoc<T>(x: seq<T>, y: seq<T>, z: seq<T>)
    ensures x + (y + z) == (x + y) + z
  {
  }

  /** Three mutually exclusive, exhaustive filters split a sequence: each
      element lands in exactly one of the three results. */
  lemma KeepPartition3<T>(s: seq<T>, p: T -> bool, q: T -> bool, u: T -> bool)
    requires forall i :: 0 <= i < |s| ==> (p(s[i]) || q(s[i]) || u(s[i]))
    requires forall i :: 0 <= i < |s| ==> !(p(s[i]) && q(s[i])) && !(p(s[i]) && u(s[i])) && !(q(s[i]) && u(s[i]))
    ensures |Keep(s, p)| + |Keep(s, q)| + |Keep(s, u)| == |s|
    ensures multiset(Keep(s, p)) + multiset(Keep(s, q)) + multiset(Keep(s, u)) == multiset(s)
  {
    KeepSplitsMultiset(s, p, q, u);
    assert |multiset(Keep(s, p)) + multiset(Keep(s, q)) + multiset(Keep(s, u))| == |multiset(s)|;
  }

  lemma {:induction false} KeepSplitsMultiset<T>(s: seq<T>, p: T -> bool, q: T -> bool, u: T -> bool)
    requires forall i :: 0 <= i < |s| ==> (p(s[i]) || q(s[i]) || u(s[i]))
    requires forall i :: 0 <= i < |s| ==> !(p(s[i]) && q(s[i])) && !(p(s[i]) && u(s[i])) && !(q(s[i]) && u(s[i]))
    ensures multiset(Keep(s, p)) + multiset(Keep(s, q)) + multiset(Keep(s, u)) == multiset(s)
    decreases |s|
  {
    if |s| > 0 {
      var rest := s[1..];
      KeepSplitsMultiset(rest, p, q, u);
      assert s == [s[0]] + rest;
      assert multiset(s) == multiset{s[0]} + multiset(rest);
    }
  }
}

=== FILE: statistics.dfy ===
/** The statistics view: task counts by status and priority, time tracked,
    the seven-day chart, completion rate, average time and the most common
    priority. `today` is a day number (days since the epoch, UTC) supplied
    by the caller. */
module Statistics {
  import opened Domain
  import opened Seqs
  import opened JsText
  import TimeTracking

  // ---------------------------------------------------------------------------
  // Counts

  function CountStatus(tasks: seq<Task>, s: Status): (n: nat)
    ensures n <= |tasks|
  {
    |Keep(tasks, HasStatus(s))|
  }

  function CountPriority(tasks: seq<Task>, p: Priority): (n: nat)
    ensures n <= |tasks|
  {
    |Keep(tasks, HasPriority(p))|
  }

  /** Counting by status is the filter's length: one more task adds one
      exactly when it has that status. */
  lemma CountStatusCons(t: Task, ts: seq<Task>, s: Status)
    ensures CountStatus([t] + ts, s) == (if t.status == s then 1 else 0) + CountStatus(ts, s)
  {
    KeepAppend([t], ts, HasStatus(s));
    KeepSingleton(t, HasStatus(s));
  }

  /** Likewise for priority. */
  lemma CountPriorityCons(t: Task, ts: seq<Task>, p: Priority)
    ensures CountPriority([t] + ts, p) == (if t.priority == p then 1 else 0) + CountPriority(ts, p)
  {
    KeepAppend([t], ts, HasPriority(p));
    KeepSingleton(t, HasPriority(p));
  }

  /** The three status counts cover every task exactly once. */
  lemma StatusCountsSum(tasks: seq<Task>)
    ensures CountStatus(tasks, Todo) + CountStatus(tasks, InProgress) + CountStatus(tasks, Completed) == |tasks|
  {
    KeepPartition3(tasks, HasStatus(Todo), HasStatus(InProgress), HasStatus(Completed));
  }

  /** The three priority counts cover every task exactly once. */
  lemma PriorityCountsSum(tasks: seq<Task>)
    ensures CountPriority(tasks, High) + CountPriority(tasks, Medium) + CountPriority(tasks, Low) == |tasks|
  {
    KeepPartition3(tasks, HasPriority(High), HasPriority(Medium), HasPriority(Low));
  }

  // ---------------------------------------------------------------------------
  // Time tracked

  /** Seconds tracked overall: durations of stopped entries only. */
  function TotalTimeSpent(entries: seq<TimeEntry>): (r: int)
    ensures NonNegativeDurations(entries) ==> r >= 0
  {
    TotalDuration(Keep(entries, Inactive))
  }

  /** One entry's share of the overall total. */
  lemma {:induction false} TotalTimeSpentCons(e: TimeEntry, rest: seq<TimeEntry>)
    ensures TotalTimeSpent([e] + rest) == (if e.isActive then 0 else e.duration) + TotalTimeSpent(rest)
  {
    KeepAppend([e], rest, Inactive);
    TotalDurationAppend(Keep([e], Inactive), Keep(rest, Inactive));
    KeepSingleton(e, Inactive);
  }

  /** The task ids occurring in a snapshot, each once. */
  function DistinctTaskIds(entries: seq<TimeEntry>): (ids: seq<Id>)
    ensures forall i, j :: 0 <= i < j < |ids| ==> ids[i] != ids[j]
    ensures forall i :: 0 <= i < |entries| ==> entries[i].taskId in ids
    ensures forall id :: id in ids ==> exists i :: 0 <= i < |entries| && entries[i].taskId == id
    decreases |entries|
  {
    if |entries| == 0 then []
    else
      var rest := DistinctTaskIds(entries[1..]);
      if entries[0].taskId in rest then rest else [entries[0].taskId] + rest
  }

  /** Sum of the per-task totals over a list of task ids. */
  function SumOfTaskTotals(entries: seq<TimeEntry>, ids: seq<Id>): int
    decreases |ids|
  {
    if |ids| == 0 then 0 else TimeTracking.TaskTotal(entries, ids[0]) + SumOfTaskTotals(entries, ids[1..])
  }

  /** What one entry adds to the task totals of `ids`, counted per id. */
  function Share(e: TimeEntry, ids: seq<Id>): int
    decreases |ids|
  {
    if |ids| == 0 then 0
    else (if e.taskId == ids[0] && !e.isActive then e.duration else 0) + Share(e, ids[1..])
  }

  lemma {:induction false} SumOfTaskTotalsCons(e: TimeEntry, rest: seq<TimeEntry>, ids: seq<Id>)
    ensures SumOfTaskTotals([e] + rest, ids) == Share(e, ids) + SumOfTaskTotals(rest, ids)
    decreases |ids|
  {
    if |ids| > 0 {
      TimeTracking.TaskTotalCons(e, rest, ids[0]);
      SumOfTaskTotalsCons(e, rest, ids[1..]);
    }
  }

  /** With distinct ids, an entry is counted once if its task is listed. */
  lemma {:induction false} ShareOfDistinct(e: TimeEntry, ids: seq<Id>)
    requires forall i, j :: 0 <= i < j < |ids| ==> ids[i] != ids[j]
    ensures Share(e, ids) == if e.taskId in ids && !e.isActive then e.duration else 0
    decreases |ids|
  {
    if |ids| > 0 {
      ShareOfDistinct(e, ids[1..]);
      if e.taskId == ids[0] {
        assert e.taskId !in ids[1..] by {
          forall j | 0 <= j < |ids[1..]| ensures ids[1..][j] != ids[0] {
            assert ids[1..][j] == ids[j + 1];
          }
        }
      }
    }
  }

  /** Summing per-task totals over distinct ids that cover every entry's
      task gives the overall total. */
  lemma {:induction false} SumOverCoveringIds(entries: seq<TimeEntry>, ids: seq<Id>)
    requires forall i, j :: 0 <= i < j < |ids| ==> ids[i] != ids[j]
    requires forall i :: 0 <= i < |entries| ==> entries[i].taskId in ids
    ensures SumOfTaskTotals(entries, ids) == TotalTimeSpent(entries)
    decreases |entries|
  {
    if |entries| == 0 {
      ZeroTotals(entries, ids);
      assert Keep(entries, Inactive) == [];
    } else {
      var e, rest := entries[0], entries[1..];
      assert entries == [e] + rest;
      SumOfTaskTotalsCons(e, rest, ids);
      ShareOfDistinct(e, ids);
      SumOverCoveringIds(rest, ids);
      TotalTimeSpentCons(e, rest);
    }
  }

  lemma {:induction false} ZeroTotals(entries: seq<TimeEntry>, ids: seq<Id>)
    requires |entries| == 0
    ensures SumOfTaskTotals(entries, ids) == 0
    decreases |ids|
  {
    if |ids| > 0 {
      ZeroTotals(entries, ids[1..]);
      assert TimeTracking.TaskEntries(entries, ids[0]) == [];
    }
  }

  /** The "time tracked" card equals the per-task totals of the timer view,
      summed over the tasks that appear in the snapshot. */
  lemma TotalIsSumOfTaskTotals(entries: seq<TimeEntry>)
    ensures TotalTimeSpent(entries) == SumOfTaskTotals(entries, DistinctTaskIds(entries))
  {
    SumOverCoveringIds(entries, DistinctTaskIds(entries));
  }

  // ---------------------------------------------------------------------------
  // The seven-day chart

  const MsPerDay: int := 86_400_000

  /** The calendar day (UTC) an entry started on: the date part of its ISO
      start time. */
  function StartDay(e: TimeEntry): (d: int)
    ensures d * MsPerDay <= e.startTime < d * MsPerDay + MsPerDay
  {
    e.startTime / MsPerDay
  }

  /** Stopped entries that started on `day`. */
  function OnDay(day: int): TimeEntry -> bool {
    (e: TimeEntry) => StartDay(e) == day && !e.isActive
  }

  function DaySeconds(entries: seq<TimeEntry>, day: int): (r: int)
    ensures NonNegativeDurations(entries) ==> r >= 0
  {
    TotalDuration(Keep(entries, OnDay(day)))
  }

  /** An entry counts toward the day it started on and no other, however
      long it ran; a running entry counts toward no day. */
  lemma DaySecondsCons(e: TimeEntry, rest: seq<TimeEntry>, day: int)
    ensures DaySeconds([e] + rest, day)
      == (if StartDay(e) == day && !e.isActive then e.duration else 0) + DaySeconds(rest, day)
  {
    KeepAppend([e], rest, OnDay(day));
    TotalDurationAppend(Keep([e], OnDay(day)), Keep(rest, OnDay(day)));
    KeepSingleton(e, OnDay(day));
  }

  /** `Math.round(seconds / 60)`: the nearest whole minute, halves rounded up. */
  function RoundMinutes(seconds: int): (m: int)
    ensures 60 * m - 30 <= seconds < 60 * m + 30
  {
    (seconds + 30) / 60
  }

  datatype DayBucket = DayBucket(day: int, minutes: int)

  const WindowDays: nat := 7

  /** The chart: the seven days ending today, oldest first, each with the
      rounded minutes of the stopped entries that started on it. */
  function TrackingSeries(entries: seq<TimeEntry>, today: int): (r: seq<DayBucket>)
    ensures |r| == WindowDays
    ensures r[WindowDays - 1].day == today
    ensures forall i :: 0 <= i < |r| - 1 ==> r[i + 1].day == r[i].day + 1
    ensures forall i :: 0 <= i < |r| ==> r[i].minutes == RoundMinutes(DaySeconds(entries, r[i].day))
  {
    seq(WindowDays, (i: int) => DayBucket(today - (WindowDays - 1) + i,
                                          RoundMinutes(DaySeconds(entries, today - (WindowDays - 1) + i))))
  }

  /** An entry that started on one of the seven days moves only that day's
      bucket, and only by its own duration before rounding. */
  lemma SeriesOfOneMoreEntry(e: TimeEntry, rest: seq<TimeEntry>, today: int, i: nat)
    requires i < WindowDays
    ensures var day := TrackingSeries([e] + rest, today)[i].day;
      TrackingSeries([e] + rest, today)[i].minutes
        == RoundMinutes((if StartDay(e) == day && !e.isActive then e.duration else 0) + DaySeconds(rest, day))
  {
    DaySecondsCons(e, rest, TrackingSeries([e] + rest, today)[i].day);
  }

  // ---------------------------------------------------------------------------
  // Insights

  /** `Math.round(completed / total * 100)`, or 0 without tasks: the nearest
      whole percentage, halves rounded up. */
  function CompletionRate(tasks: seq<Task>): (r: int)
    ensures |tasks| == 0 ==> r == 0
    ensures |tasks| > 0 ==>
      (2 * r - 1) * |tasks| <= 200 * CountStatus(tasks, Completed) < (2 * r + 1) * |tasks|
    ensures 0 <= r <= 100
  {
    var total := |tasks|;
    var done := CountStatus(tasks, Completed);
    if total == 0 then 0
    else
      RoundedPercent(done, total)
  }

  /** Rounded `100 * part / whole` for `0 <= part <= whole`. */
  function RoundedPercent(part: nat, whole: nat): (r: int)
    requires 0 < whole && part <= whole
    ensures (2 * r - 1) * whole <= 200 * part < (2 * r + 1) * whole
    ensures 0 <= r <= 100
  {
    var q := (200 * part + whole) / (2 * whole);
    QuotientBounds(200 * part + whole, 2 * whole, q);
    MulLeft(whole, q);
    if q > 100 then
      MulMono(whole, 101, q);
      assert false;
      0
    else q
  }

  /** `q` is the floor quotient of `n` by `d`. */
  lemma QuotientBounds(n: nat, d: nat, q: int)
    requires d > 0 && q == n / d
    ensures q * d <= n < q * d + d
  {
  }

  lemma MulLeft(a: int, q: int)
    ensures q * (2 * a) == 2 * (a * q) && (2 * q - 1) * a == 2 * (a * q) - a && (2 * q + 1) * a == 2 * (a * q) + a
  {
  }

  lemma MulMono(a: nat, b: int, c: int)
    requires b <= c
    ensures a * b <= a * c
  {
  }

  /** The reduce over (High, Medium, Low) that keeps the current maximum
      unless a later count is strictly larger: the first priority with the
      largest count. With no tasks at all this is High, never "None". */
  function MostCommonPriority(tasks: seq<Task>): (p: Priority)
    ensures forall q: Priority :: CountPriority(tasks, q) <= CountPriority(tasks, p)
    ensures forall q: Priority :: Rank(q) < Rank(p) ==> CountPriority(tasks, q) < CountPriority(tasks, p)
  {
    var afterMedium := if CountPriority(tasks, Medium) > CountPriority(tasks, High) then Medium else High;
    if CountPriority(tasks, Low) > CountPriority(tasks, afterMedium) then Low else afterMedium
  }

  // ---------------------------------------------------------------------------
  // "Xh Ym"

  /** JavaScript's `x % d` on numbers: remainder of truncating division. */
  function RealRem(x: real, d: real): (r: real)
    requires d > 0.0
    ensures x >= 0.0 ==> 0.0 <= r < d
  {
    var q := x / d;
    var t := if q >= 0.0 then q.Floor else -((-q).Floor);
    if x >= 0.0 then FloorScaled(x, d); x - d * (t as real) else x - d * (t as real)
  }

  /** `d * floor(x / d)` lies within `d` below `x`. */
  lemma FloorScaled(x: real, d: real)
    requires x >= 0.0 && d > 0.0
    ensures 0.0 <= x - d * ((x / d).Floor as real) < d
  {
    var q := x / d;
    var t := q.Floor as real;
    assert t <= q < t + 1.0;
    RealMulMono(d, t, q);
    RealMulMonoStrict(d, q, t + 1.0);
    assert d * q == x;
    assert d * t <= d * q;
    assert d * t <= x;
    assert d * q < d * (t + 1.0);
    assert d * (t + 1.0) == d * t + d;
    assert x < d * t + d;
  }

  lemma RealMulMono(d: real, a: real, b: real)
    requires d > 0.0 && a <= b
    ensures d * a <= d * b
  {
  }

  lemma RealMulMonoStrict(d: real, a: real, b: real)
    requires d > 0.0 && a < b
    ensures d * a < d * b
  {
  }

  /** Hours and minutes as the view computes them from a number of seconds. */
  function HoursMinutes(seconds: real): (hm: (int, int))
    ensures seconds >= 0.0 ==> hm.0 >= 0 && 0 <= hm.1 < 60
  {
    ((seconds / 3600.0).Floor, (RealRem(seconds, 3600.0) / 60.0).Floor)
  }

  function FormatHoursMinutes(seconds: real): string {
    var hm := HoursMinutes(seconds);
    IntToString(hm.0) + "h " + IntToString(hm.1) + "m"
  }

  /** For a whole, non-negative number of seconds the label reads
      `<n div 3600>h <(n mod 3600) div 60>m`. */
  lemma FormatWholeSeconds(n: int)
    requires n >= 0
    ensures FormatHoursMinutes(n as real) == IntToString(n / 3600) + "h " + IntToString((n % 3600) / 60) + "m"
  {
    HoursMinutesOfWholeSeconds(n);
  }

  /** For whole seconds the fields are plain integer division: hours, then
      minutes of the remaining part of an hour. */
  lemma HoursMinutesOfWholeSeconds(n: int)
    requires n >= 0
    ensures HoursMinutes(n as real) == (n / 3600, (n % 3600) / 60)
  {
    var x := n as real;
    var h := n / 3600;
    assert n == 3600 * h + n % 3600;
    assert (x / 3600.0).Floor == h;
    assert RealRem(x, 3600.0) == (n % 3600) as real;
    var r := n % 3600;
    assert r == 60 * (r / 60) + r % 60;
    assert ((r as real) / 60.0).Floor == r / 60;
  }

  /** Hours and minutes only see the whole part of a non-negative number of
      seconds. */
  lemma HoursMinutesOfFloor(x: real)
    requires x >= 0.0
    ensures HoursMinutes(x) == HoursMinutes(x.Floor as real)
  {
    var n := x.Floor;
    var h := n / 3600;
    assert n == 3600 * h + n % 3600;
    assert (x / 3600.0).Floor == h;
    HoursMinutesOfWholeSeconds(n);
    var r := RealRem(x, 3600.0);
    assert r == x - 3600.0 * (h as real);
    var rn := n % 3600;
    assert (rn as real) <= r < (rn as real) + 1.0;
    assert rn == 60 * (rn / 60) + rn % 60;
    assert (r / 60.0).Floor == rn / 60;
  }

  /** The division by the completed count that yields a fractional number of
      seconds makes no difference: the average shows as the integer quotient. */
  lemma AverageIsIntegerDivision(total: int, completed: int)
    requires total >= 0 && completed > 0
    ensures FormatHoursMinutes(total as real / completed as real) == FormatHoursMinutes((total / completed) as real)
  {
    var x := total as real / completed as real;
    var q := total / completed;
    assert total == completed * q + total % completed;
    assert x * (completed as real) == total as real;
    assert (q as real) * (completed as real) <= total as real;
    assert total as real < ((q + 1) as real) * (completed as real);
    assert x.Floor == q by {
      QuotientFloor(total, completed, q, x);
    }
    HoursMinutesOfFloor(x);
  }

  lemma QuotientFloor(total: int, completed: int, q: int, x: real)
    requires completed > 0
    requires x * (completed as real) == total as real
    requires (q as real) * (completed as real) <= total as real < ((q + 1) as real) * (completed as real)
    ensures x.Floor == q
  {
    var c := completed as real;
    assert (q as real) * c <= x * c;
    assert q as real <= x;
    assert x < (q + 1) as real;
  }

  /** Below zero the truncating `%` parts ways with the floored quotient: an
      average of -3599.5 s shows "-1h -60m", the integer quotient -3600 s
      shows "-1h 0m". */
  lemma NegativeAverageMinutes()
    ensures HoursMinutes(-3599.5) == (-1, -60)
    ensures HoursMinutes(-3600.0) == (-1, 0)
  {
    assert RealRem(-3599.5, 3600.0) == -3599.5;
    assert RealRem(-3600.0, 3600.0) == 0.0;
  }

  /** The "time tracked" card. */
  function TimeTrackedLabel(entries: seq<TimeEntry>): string {
    FormatHoursMinutes(TotalTimeSpent(entries) as real)
  }

  /** With non-negative durations, the card shows the tracked seconds as
      whole hours and the whole minutes left over. */
  lemma TimeTrackedLabelOfTotal(entries: seq<TimeEntry>)
    requires NonNegativeDurations(entries)
    ensures var total := TotalTimeSpent(entries);
      TimeTrackedLabel(entries) == IntToString(total / 3600) + "h " + IntToString((total % 3600) / 60) + "m"
  {
    FormatWholeSeconds(TotalTimeSpent(entries));
  }

  /** "Average time per task": all tracked time over the number of completed
      tasks, or "0h 0m" when none is completed. */
  function AverageTimeLabel(tasks: seq<Task>, entries: seq<TimeEntry>): (s: string)
    ensures CountStatus(tasks, Completed) == 0 ==> s == "0h 0m"
  {
    var done := CountStatus(tasks, Completed);
    if done > 0 then FormatHoursMinutes(TotalTimeSpent(entries) as real / done as real)
    else "0h 0m"
  }

  /** With completed tasks and a non-negative total, the average shows the
      integer quotient of total seconds by completed tasks. */
  lemma AverageLabelIsQuotient(tasks: seq<Task>, entries: seq<TimeEntry>)
    requires CountStatus(tasks, Completed) > 0 && TotalTimeSpent(entries) >= 0
    ensures AverageTimeLabel(tasks, entries)
      == FormatHoursMinutes((TotalTimeSpent(entries) / CountStatus(tasks, Completed)) as real)
  {
    AverageIsIntegerDivision(TotalTimeSpent(entries), CountStatus(tasks, Completed));
  }
}

=== FILE: task_form.dfy ===
/** The task form: its initial contents, validation with the exact messages
    shown, and what a submit sends. JavaScript's `Number(s)` is a parameter
    `numberOf` (`None` stands for NaN); `Number.prototype.toString` on the
    stored estimate is a parameter `numberToString`. */
module TaskForm {
  import opened Domain
  import opened JsText
  import Tasks

  datatype Field = TitleField | DescriptionField | EstimatedTimeField

  /** The form's inputs, all as typed. */
  datatype FormData = FormData(title: string, description: string, priority: Priority, estimatedTime: string)

  /** The form opened for a task (editing) or for nothing (creating): the
      task's fields, with a missing description or estimate shown empty and
      the priority defaulting to medium. */
  function InitialForm(task: Option<Task>, numberToString: real -> string): (f: FormData)
    ensures task.None? ==> f == FormData("", "", Medium, "")
    ensures task.Some? ==> f.title == task.value.title && f.priority == task.value.priority
    ensures task.Some? ==> f.description == (if task.value.description.Some? then task.value.description.value else "")
    ensures task.Some? ==> f.estimatedTime == (if task.value.estimatedTime.Some? then numberToString(task.value.estimatedTime.value) else "")
  {
    match task
    case None => FormData("", "", Medium, "")
    case Some(t) =>
      FormData(t.title,
               if t.description.Some? then t.description.value else "",
               t.priority,
               if t.estimatedTime.Some? then numberToString(t.estimatedTime.value) else "")
  }

  const TitleRequired: string := "Title is required"
  const TitleTooShort: string := "Title must be at least 3 characters"
  const DescriptionRequired: string := "Description is required"
  const DescriptionTooShort: string := "Description must be at least 10 characters"
  const EstimateNotPositive: string := "Estimated time must be a positive number"

  datatype TextProblem = Blank | TooShort

  /** A blank field is required; otherwise the UNTRIMMED text must reach the
      minimum length, so surrounding spaces count toward it. */
  function TextProblemOf(text: string, minLength: nat): (e: Option<TextProblem>)
    ensures e == Some(Blank) <==> AllWhitespace(text)
    ensures e == Some(TooShort) <==> !AllWhitespace(text) && |text| < minLength
    ensures e.None? <==> !AllWhitespace(text) && |text| >= minLength
  {
    TrimEmptyIffBlank(text);
    if Trim(text) == [] then Some(Blank)
    else if |text| < minLength then Some(TooShort)
    else None
  }

  function TextMessage(e: Option<TextProblem>, required: string, tooShort: string): Option<string> {
    match e
    case None => None
    case Some(Blank) => Some(required)
    case Some(TooShort) => Some(tooShort)
  }

  /** The message `validateForm` records for one field, if any. */
  function FieldError(form: FormData, f: Field, numberOf: string -> Option<real>): Option<string> {
    match f
    case TitleField => TextMessage(TextProblemOf(form.title, 3), TitleRequired, TitleTooShort)
    case DescriptionField => TextMessage(TextProblemOf(form.description, 10), DescriptionRequired, DescriptionTooShort)
    case EstimatedTimeField =>
      var estimate := form.estimatedTime;
      if |estimate| > 0 && (numberOf(estimate).None? || numberOf(estimate).value <= 0.0) then Some(EstimateNotPositive)
      else None
  }

  const AllFields: set<Field> := {TitleField, DescriptionField, EstimatedTimeField}

  /** The error map `validateForm` builds: one message per failing field. */
  function Validate(form: FormData, numberOf: string -> Option<real>): map<Field, string> {
    map f | f in AllFields && FieldError(form, f, numberOf).Some? :: FieldError(form, f, numberOf).value
  }

  /** The title is flagged when blank ("required") or, failing that, when
      shorter than 3 characters before trimming. */
  lemma TitleValidation(form: FormData, numberOf: string -> Option<real>)
    ensures var errors := Validate(form, numberOf);
      && (TitleField in errors <==> AllWhitespace(form.title) || |form.title| < 3)
      && (TitleField in errors ==>
            errors[TitleField] == if AllWhitespace(form.title) then TitleRequired else TitleTooShort)
  {
    var e := TextProblemOf(form.title, 3);
    var errors := Validate(form, numberOf);
    assert TitleField in AllFields;
    assert FieldError(form, TitleField, numberOf) == TextMessage(e, TitleRequired, TitleTooShort);
    assert TitleField in errors <==> e.Some?;
    if e.Some? {
      assert errors[TitleField] == if e.value == Blank then TitleRequired else TitleTooShort;
    }
  }

  /** The description is flagged when blank ("required") or, failing that,
      when shorter than 10 characters before trimming. */
  lemma DescriptionValidation(form: FormData, numberOf: string -> Option<real>)
    ensures var errors := Validate(form, numberOf);
      && (DescriptionField in errors <==> AllWhitespace(form.description) || |form.description| < 10)
      && (DescriptionField in errors ==>
            errors[DescriptionField] == if AllWhitespace(form.description) then DescriptionRequired else DescriptionTooShort)
  {
    var e := TextProblemOf(form.description, 10);
    var errors := Validate(form, numberOf);
    assert DescriptionField in AllFields;
    assert FieldError(form, DescriptionField, numberOf) == TextMessage(e, DescriptionRequired, DescriptionTooShort);
    assert DescriptionField in errors <==> e.Some?;
    if e.Some? {
      assert errors[DescriptionField] == if e.value == Blank then DescriptionRequired else DescriptionTooShort;
    }
  }

  /** An empty estimate passes; a typed one fails when it is not a number or
      not positive. */
  lemma EstimateValidation(form: FormData, numberOf: string -> Option<real>)
    ensures var errors := Validate(form, numberOf);
      && (EstimatedTimeField in errors <==>
            |form.estimatedTime| > 0 && (numberOf(form.estimatedTime).None? || numberOf(form.estimatedTime).value <= 0.0))
      && (EstimatedTimeField in errors ==> errors[EstimatedTimeField] == EstimateNotPositive)
  {
    assert EstimatedTimeField in AllFields;
  }

  /** `validateForm()`'s answer: the error map is empty. */
  predicate IsValid(form: FormData, numberOf: string -> Option<real>) {
    |Validate(form, numberOf)| == 0
  }

  /** What a valid form is, field by field: a title of at least 3 characters
      that is not all blank, a description of at least 10 that is not all
      blank, and an estimate that is empty or a positive number. */
  predicate Acceptable(form: FormData, numberOf: string -> Option<real>) {
    && !AllWhitespace(form.title) && |form.title| >= 3
    && !AllWhitespace(form.description) && |form.description| >= 10
    && (|form.estimatedTime| == 0 || (numberOf(form.estimatedTime).Some? && numberOf(form.estimatedTime).value > 0.0))
  }

  lemma ValidIffAcceptable(form: FormData, numberOf: string -> Option<real>)
    ensures IsValid(form, numberOf) <==> Acceptable(form, numberOf)
  {
    var errors := Validate(form, numberOf);
    TitleValidation(form, numberOf);
    DescriptionValidation(form, numberOf);
    EstimateValidation(form, numberOf);
    if !Acceptable(form, numberOf) {
      if AllWhitespace(form.title) || |form.title| < 3 {
        assert TitleField in errors;
      } else if AllWhitespace(form.description) || |form.description| < 10 {
        assert DescriptionField in errors;
      } else {
        assert EstimatedTimeField in errors;
      }
    } else {
      assert errors.Keys == {} by {
        forall f: Field | f in errors ensures false {
          match f
          case TitleField =>
          case DescriptionField =>
          case EstimatedTimeField =>
        }
      }
    }
  }

  /** The fields a create sends. */
  datatype NewTask = NewTask(title: string, description: string, priority: Priority, estimatedTime: Option<real>)

  /** A submit's effect: nothing sent (the errors are shown instead), a
      create, or an update of the task being edited. */
  datatype Submission =
    | Rejected(errors: map<Field, string>)
    | CreateTask(data: NewTask)
    | UpdateTask(id: Id, update: Tasks.TaskUpdate)

  /** The data a valid form sends: title and description trimmed, an empty
      estimate left out, a non-empty one as the number it parses to. */
  function Payload(form: FormData, numberOf: string -> Option<real>): (d: NewTask)
    ensures d.title == Trim(form.title) && d.description == Trim(form.description)
    ensures d.priority == form.priority
    ensures d.estimatedTime.Some? ==> |form.estimatedTime| > 0 && d.estimatedTime == numberOf(form.estimatedTime)
    ensures |form.estimatedTime| > 0 && numberOf(form.estimatedTime).Some? ==> d.estimatedTime.Some?
  {
    NewTask(Trim(form.title), Trim(form.description), form.priority,
            if |form.estimatedTime| > 0 then numberOf(form.estimatedTime) else None)
  }

  function Submit(form: FormData, editing: Option<Task>, numberOf: string -> Option<real>): (s: Submission)
    ensures s.Rejected? <==> !Acceptable(form, numberOf)
    ensures s.Rejected? ==> |s.errors| > 0
    ensures s.CreateTask? <==> Acceptable(form, numberOf) && editing.None?
    ensures s.UpdateTask? <==> Acceptable(form, numberOf) && editing.Some?
    ensures s.UpdateTask? ==> s.id == editing.value.id
    ensures s.Rejected? ==> s.errors == Validate(form, numberOf)
    ensures s.CreateTask? ==> s.data == Payload(form, numberOf)
    ensures s.UpdateTask? ==>
      var d := Payload(form, numberOf);
      && s.update.title == Some(d.title) && s.update.description == Some(d.description)
      && s.update.priority == Some(d.priority) && s.update.estimatedTime == d.estimatedTime
      && s.update.status.None? && s.update.completedAt.None?
  {
    ValidIffAcceptable(form, numberOf);
    if !IsValid(form, numberOf) then Rejected(Validate(form, numberOf))
    else
      var data := Payload(form, numberOf);
      match editing
      case None => CreateTask(data)
      case Some(t) =>
        UpdateTask(t.id, Tasks.TaskUpdate(Some(data.title), Some(data.description), Some(data.priority), None, data.estimatedTime, None))
  }

  /** What an accepted submit sends: the typed title and description with
      their surrounding whitespace removed, neither empty nor blank at either
      end, and the estimate exactly when one was typed, positive. */
  lemma SubmittedDataIsClean(form: FormData, editing: Option<Task>, numberOf: string -> Option<real>)
    requires Acceptable(form, numberOf)
    ensures var s := Submit(form, editing, numberOf);
      var d := Payload(form, numberOf);
      && (editing.None? ==> s == CreateTask(d))
      && (editing.Some? ==>
            s.UpdateTask? && s.update.title == Some(d.title)
            && s.update.description == Some(d.description) && s.update.estimatedTime == d.estimatedTime)
      && d.title == Trim(form.title) && d.description == Trim(form.description)
      && |d.title| > 0 && !IsWhitespace(d.title[0]) && !IsWhitespace(d.title[|d.title| - 1])
      && |d.description| > 0 && !IsWhitespace(d.description[0]) && !IsWhitespace(d.description[|d.description| - 1])
      && (d.estimatedTime.Some? <==> |form.estimatedTime| > 0)
      && (d.estimatedTime.Some? ==> d.estimatedTime.value > 0.0)
  {
    var d := Payload(form, numberOf);
    var s := Submit(form, editing, numberOf);
    assert !s.Rejected?;
    TrimEmptyIffBlank(form.title);
    TrimEmptyIffBlank(form.description);
  }

  /** The length check sees the untrimmed title, so a title that passes can
      be sent shorter than 3 characters: "ab " is accepted and sent as "ab". */
  lemma ShortTitleAfterTrim(numberOf: string -> Option<real>)
    ensures var form := FormData("ab ", "a long enough text", High, "");
      && Acceptable(form, numberOf)
      && Submit(form, None, numberOf) == CreateTask(NewTask("ab", "a long enough text", High, None))
  {
    var form := FormData("ab ", "a long enough text", High, "");
    assert !IsWhitespace(form.title[0]);
    assert !IsWhitespace(form.description[0]);
    assert TrimStart("ab ") == "ab ";
    assert TrimEnd("ab") == "ab";
    assert TrimEnd("ab ") == "ab" by {
      assert "ab "[..2] == "ab";
    }
    assert TrimStart("a long enough text") == "a long enough text";
    assert TrimEnd("a long enough text") == "a long enough text";
  }

  /** Editing a task and emptying its estimate does not clear it: the empty
      estimate is left out of the update, so the stored value stays. */
  lemma EmptiedEstimateIsKept(form: FormData, t: Task, numberOf: string -> Option<real>)
    requires Acceptable(form, numberOf) && |form.estimatedTime| == 0
    ensures Submit(form, Some(t), numberOf).UpdateTask?
    ensures Tasks.Apply(t, Submit(form, Some(t), numberOf).update).estimatedTime == t.estimatedTime
  {
  }

  /** Opening an existing task and saving without changes sends its fields
      back, trimmed; an untouched estimate round-trips when printing and
      parsing a number are inverse. */
  lemma ResubmitUnchanged(t: Task, numberToString: real -> string, numberOf: string -> Option<real>)
    requires Acceptable(InitialForm(Some(t), numberToString), numberOf)
    requires forall x: real :: x > 0.0 ==> |numberToString(x)| > 0 && numberOf(numberToString(x)) == Some(x)
    requires t.estimatedTime.Some? ==> t.estimatedTime.value > 0.0
    ensures var s := Submit(InitialForm(Some(t), numberToString), Some(t), numberOf);
      && s.UpdateTask?
      && Tasks.Apply(t, s.update).estimatedTime == t.estimatedTime
      && Tasks.Apply(t, s.update).title == Trim(t.title)
      && Tasks.Apply(t, s.update).status == t.status
  {
  }
}

=== FILE: task_list.dfy ===
/** The task list: the status filter, the grouping by priority, the empty
    state, and the status toggle with the update it sends. */
module TaskList {
  import opened Domain
  import opened Seqs
  import Tasks

  // ---------------------------------------------------------------------------
  // Filter

  datatype StatusFilter = AllTasks | OnlyStatus(status: Status)

  function Matches(f: StatusFilter): Task -> bool {
    (t: Task) => f.AllTasks? || t.status == f.status
  }

  /** The tasks the current filter shows, in list order. */
  function FilterTasks(tasks: seq<Task>, f: StatusFilter): (r: seq<Task>)
    ensures |r| <= |tasks|
    ensures forall i :: 0 <= i < |r| ==> f.AllTasks? || r[i].status == f.status
    ensures f.OnlyStatus? ==> forall i :: 0 <= i < |tasks| && tasks[i].status == f.status ==> tasks[i] in r
  {
    Keep(tasks, Matches(f))
  }

  /** "All" shows the list exactly as it is. */
  lemma FilterAllIsIdentity(tasks: seq<Task>)
    ensures FilterTasks(tasks, AllTasks) == tasks
  {
    KeepEverything(tasks, Matches(AllTasks));
  }

  /** The filter keeps relative order: filtering a concatenation filters each
      part in place. */
  lemma FilterKeepsOrder(a: seq<Task>, b: seq<Task>, f: StatusFilter)
    ensures FilterTasks(a + b, f) == FilterTasks(a, f) + FilterTasks(b, f)
  {
    KeepAppend(a, b, Matches(f));
  }

  /** The three status filters split the whole list between them. */
  lemma StatusFiltersPartition(tasks: seq<Task>)
    ensures |FilterTasks(tasks, OnlyStatus(Todo))| + |FilterTasks(tasks, OnlyStatus(InProgress))|
            + |FilterTasks(tasks, OnlyStatus(Completed))| == |tasks|
  {
    KeepPartition3(tasks, Matches(OnlyStatus(Todo)), Matches(OnlyStatus(InProgress)), Matches(OnlyStatus(Completed)));
  }

  // ---------------------------------------------------------------------------
  // Groups

  datatype Groups = Groups(high: seq<Task>, medium: seq<Task>, low: seq<Task>) {
    /** The group of one priority. */
    function Of(p: Priority): seq<Task> {
      match p
      case High => high
      case Medium => medium
      case Low => low
    }
  }

  function GroupByPriority(filtered: seq<Task>): (g: Groups)
    ensures forall i :: 0 <= i < |g.high| ==> g.high[i].priority == High
    ensures forall i :: 0 <= i < |g.medium| ==> g.medium[i].priority == Medium
    ensures forall i :: 0 <= i < |g.low| ==> g.low[i].priority == Low
  {
    Groups(Keep(filtered, HasPriority(High)), Keep(filtered, HasPriority(Medium)), Keep(filtered, HasPriority(Low)))
  }

  /** Every shown task lands in exactly one group: the groups hold the
      filtered list's tasks, each as often as it occurs there. */
  lemma GroupsPartition(filtered: seq<Task>)
    ensures var g := GroupByPriority(filtered);
      && |g.high| + |g.medium| + |g.low| == |filtered|
      && multiset(g.high) + multiset(g.medium) + multiset(g.low) == multiset(filtered)
  {
    KeepPartition3(filtered, HasPriority(High), HasPriority(Medium), HasPriority(Low));
  }

  /** Grouping keeps list order inside each group. */
  lemma GroupsKeepOrder(a: seq<Task>, b: seq<Task>)
    ensures GroupByPriority(a + b)
      == Groups(GroupByPriority(a).high + GroupByPriority(b).high,
                GroupByPriority(a).medium + GroupByPriority(b).medium,
                GroupByPriority(a).low + GroupByPriority(b).low)
  {
    KeepAppend(a, b, HasPriority(High));
    KeepAppend(a, b, HasPriority(Medium));
    KeepAppend(a, b, HasPriority(Low));
  }

  datatype Section = Section(priority: Priority, tasks: seq<Task>)

  function SectionIfAny(p: Priority, tasks: seq<Task>): seq<Section> {
    if |tasks| == 0 then [] else [Section(p, tasks)]
  }

  /** The sections drawn, high first: every group with tasks draws one
      section carrying that group, and an empty group draws nothing. */
  function RenderedSections(g: Groups): (r: seq<Section>)
    ensures |r| <= 3
    ensures forall i :: 0 <= i < |r| ==> |r[i].tasks| > 0 && r[i].tasks == g.Of(r[i].priority)
    ensures forall p: Priority :: |g.Of(p)| > 0 <==> Section(p, g.Of(p)) in r
    ensures forall i, j :: 0 <= i < j < |r| ==> Rank(r[i].priority) < Rank(r[j].priority)
    ensures (|g.high| > 0) <==> (|r| > 0 && r[0] == Section(High, g.high))
  {
    SectionIfAny(High, g.high) + SectionIfAny(Medium, g.medium) + SectionIfAny(Low, g.low)
  }

  /** "No tasks found" is shown when the filter leaves nothing. */
  predicate ShowsEmptyState(filtered: seq<Task>) {
    |filtered| == 0
  }

  /** The empty state appears exactly when no section is drawn: the two never
      show together and the page is never blank. */
  lemma EmptyStateIffNoSections(filtered: seq<Task>)
    ensures ShowsEmptyState(filtered) <==> |RenderedSections(GroupByPriority(filtered))| == 0
  {
    GroupsPartition(filtered);
  }

  // ---------------------------------------------------------------------------
  // Status toggle

  /** The status after a click: todo, in progress, completed, then todo again. */
  function NextStatus(s: Status): (n: Status)
    ensures n != s
  {
    match s
    case Todo => InProgress
    case InProgress => Completed
    case Completed => Todo
  }

  /** Three clicks bring a task back to where it was. */
  lemma ThreeTogglesReturn(s: Status)
    ensures NextStatus(NextStatus(NextStatus(s))) == s
    ensures NextStatus(s) != NextStatus(NextStatus(s))
  {
  }

  /** The update a click sends: the new status, and a completion time of
      `now` when the new status is completed, null otherwise. */
  function ToggleUpdate(t: Task, now: int): (u: Tasks.TaskUpdate)
    ensures u.status == Some(NextStatus(t.status))
    ensures u.completedAt == Some(if NextStatus(t.status) == Completed then Some(now) else None)
    ensures u.title.None? && u.description.None? && u.priority.None? && u.estimatedTime.None?
  {
    var next := NextStatus(t.status);
    Tasks.TaskUpdate(None, None, None, Some(next), None, Some(if next == Completed then Some(now) else None))
  }

  /** A click changes the status and the completion time and nothing else,
      and afterwards the task has a completion time exactly when it is
      completed, whatever state it was in before. */
  lemma ToggleKeepsCompletionConsistent(t: Task, now: int)
    ensures var r := Tasks.Apply(t, ToggleUpdate(t, now));
      && CompletionConsistent(r)
      && r.status == NextStatus(t.status)
      && r.completedAt == (if r.status == Completed then Some(now) else None)
      && r == t.(status := r.status, completedAt := r.completedAt)
  {
  }

  /** Clicking a listed task updates that task only. */
  lemma ToggleTouchesOnlyThatTask(tasks: seq<Task>, k: nat, now: int)
    requires k < |tasks|
    requires forall i, j :: 0 <= i < j < |tasks| ==> tasks[i].id != tasks[j].id
    ensures var r := Tasks.UpdateTasks(tasks, tasks[k].id, ToggleUpdate(tasks[k], now));
      && r.Some?
      && r.value[k].status == NextStatus(tasks[k].status)
      && CompletionConsistent(r.value[k])
      && forall i :: 0 <= i < |tasks| && i != k ==> r.value[i] == tasks[i]
  {
    assert Tasks.HasTask(tasks, tasks[k].id);
    ToggleKeepsCompletionConsistent(tasks[k], now);
  }
}

=== FILE: tasks.dfy ===
/** The task table's update request, as the list and the form send it: a
    partial record whose absent fields leave the stored values alone. The
    update goes to the row with the given id; when there is none, the
    request fails and nothing changes. */
module Tasks {
  import opened Domain

  /** A partial task. `completedAt` distinguishes "absent" (`None`) from
      "set to null" (`Some(None)`). An `undefined` JavaScript field is
      dropped from the request body, so it is absent here too. */
  datatype TaskUpdate = TaskUpdate(
    title: Option<string>,
    description: Option<string>,
    priority: Option<Priority>,
    status: Option<Status>,
    estimatedTime: Option<real>,
    completedAt: Option<Option<int>>)

  const NoChange: TaskUpdate := TaskUpdate(None, None, None, None, None, None)

  function Override<T>(current: T, update: Option<T>): (r: T)
    ensures update.None? ==> r == current
    ensures update.Some? ==> r == update.value
  {
    if update.Some? then update.value else current
  }

  /** The row after the update: present fields replaced, the rest kept. */
  function Apply(t: Task, u: TaskUpdate): (r: Task)
    ensures r.id == t.id && r.userId == t.userId && r.createdAt == t.createdAt
    ensures u.title.Some? ==> r.title == u.title.value
    ensures u.title.None? ==> r.title == t.title
    ensures u.description.Some? ==> r.description == u.description
    ensures u.description.None? ==> r.description == t.description
    ensures u.priority.Some? ==> r.priority == u.priority.value
    ensures u.priority.None? ==> r.priority == t.priority
    ensures u.status.Some? ==> r.status == u.status.value
    ensures u.status.None? ==> r.status == t.status
    ensures u.estimatedTime.Some? ==> r.estimatedTime == u.estimatedTime
    ensures u.estimatedTime.None? ==> r.estimatedTime == t.estimatedTime
    ensures u.completedAt.Some? ==> r.completedAt == u.completedAt.value
    ensures u.completedAt.None? ==> r.completedAt == t.completedAt
  {
    t.(title := Override(t.title, u.title),
       description := if u.description.Some? then Some(u.description.value) else t.description,
       priority := Override(t.priority, u.priority),
       status := Override(t.status, u.status),
       estimatedTime := if u.estimatedTime.Some? then u.estimatedTime else t.estimatedTime,
       completedAt := Override(t.completedAt, u.completedAt))
  }

  /** An empty update leaves the row as it was. */
  lemma ApplyNoChange(t: Task)
    ensures Apply(t, NoChange) == t
  {
  }

  /** Sending the same update twice has the effect of sending it once. */
  lemma ApplyIdempotent(t: Task, u: TaskUpdate)
    ensures Apply(Apply(t, u), u) == Apply(t, u)
  {
  }

  predicate HasTask(tasks: seq<Task>, id: Id) {
    exists i :: 0 <= i < |tasks| && tasks[i].id == id
  }

  /** `update(u).eq('id', id).single()`: every row with that id updated, the
      others untouched; no row with that id is an error. */
  function UpdateTasks(tasks: seq<Task>, id: Id, u: TaskUpdate): (r: Option<seq<Task>>)
    ensures r.None? <==> !HasTask(tasks, id)
    ensures r.Some? ==> |r.value| == |tasks|
    ensures r.Some? ==> forall i :: 0 <= i < |tasks| ==>
      r.value[i] == if tasks[i].id == id then Apply(tasks[i], u) else tasks[i]
  {
    if HasTask(tasks, id) then
      Some(seq(|tasks|, (i: int) requires 0 <= i < |tasks| =>
        if tasks[i].id == id then Apply(tasks[i], u) else tasks[i]))
    else None
  }
}

=== FILE: time_entries.dfy ===
/** The time-entry table as the data hook sees it: one user's entries, the
    insert that starts a timer, the update that stops one, and the listing
    ordered by start time, newest first. The network, the query cache and
    the notifications around these calls are not modelled. */
module TimeEntries {
  import opened Domain
  import opened Seqs

  datatype StoreError =
    | NotAuthenticated  // no signed-in user when creating an entry
    | NoMatchingEntry   // the update matched no row, so `.single()` fails

  datatype Result<T> = Ok(value: T) | Err(error: StoreError)

  /** The rows of the table; their order carries no meaning. */
  type Store = seq<TimeEntry>

  /** Row ids are primary keys. */
  predicate UniqueIds(store: Store) {
    forall i, j :: 0 <= i < j < |store| ==> store[i].id != store[j].id
  }

  /** Number of running timers in the table. Nothing in the hook bounds it. */
  function ActiveCount(store: Store): nat {
    |Keep(store, Active)|
  }

  /** Starting a timer: without a signed-in user the insert fails and the
      table is untouched; otherwise one active row is added with the given
      task and start time, the caller's user id and no end time. The insert
      sends no duration: the 0 stored here is assumed to be the table's
      column default. `freshId` is the id the table assigns. */
  function CreateEntry(store: Store, user: Option<Id>, freshId: Id, taskId: Id, startTime: int): (r: Result<Store>)
    ensures user.None? <==> r == Err(NotAuthenticated)
    ensures r.Ok? ==>
      && |r.value| == |store| + 1
      && r.value[..|store|] == store
      && r.value[|store|].id == freshId
      && r.value[|store|].userId == user.value
      && r.value[|store|].taskId == taskId
      && r.value[|store|].startTime == startTime
      && r.value[|store|].endTime == None
      && r.value[|store|].duration == 0
      && r.value[|store|].isActive
  {
    match user
    case None => Err(NotAuthenticated)
    case Some(uid) => Ok(store + [TimeEntry(freshId, uid, taskId, startTime, None, 0, true)])
  }

  /** The row a stop turns `e` into: ended now, with the caller's duration. */
  function Stopped(e: TimeEntry, duration: int, now: int): (s: TimeEntry)
    ensures s.id == e.id && s.userId == e.userId && s.taskId == e.taskId && s.startTime == e.startTime
    ensures !s.isActive && s.endTime == Some(now) && s.duration == duration
  {
    e.(endTime := Some(now), duration := duration, isActive := false)
  }

  /** Every row whose id is `id` stopped, every other row as it was. */
  function StopMatching(store: Store, id: Id, duration: int, now: int): (r: Store)
    ensures |r| == |store|
    ensures forall i :: 0 <= i < |store| && store[i].id == id ==> r[i] == Stopped(store[i], duration, now)
    ensures forall i :: 0 <= i < |store| && store[i].id != id ==> r[i] == store[i]
    decreases |store|
  {
    if |store| == 0 then []
    else [if store[0].id == id then Stopped(store[0], duration, now) else store[0]]
         + StopMatching(store[1..], id, duration, now)
  }

  predicate HasId(store: Store, id: Id) {
    exists i :: 0 <= i < |store| && store[i].id == id
  }

  /** Stopping a timer: the row with that id gets `is_active = false`, an end
      time of `now` and exactly the duration the caller supplies (nothing is
      recomputed from the timestamps, and an already stopped row is simply
      overwritten). When no row has the id, the request fails and nothing
      changes. */
  function StopEntry(store: Store, id: Id, duration: int, now: int): (r: Result<Store>)
    ensures !HasId(store, id) <==> r == Err(NoMatchingEntry)
    ensures r.Ok? ==> |r.value| == |store|
    ensures r.Ok? ==> forall i :: 0 <= i < |store| && store[i].id == id ==>
      r.value[i] == Stopped(store[i], duration, now)
    ensures r.Ok? ==> forall i :: 0 <= i < |store| && store[i].id != id ==> r.value[i] == store[i]
  {
    if HasId(store, id) then Ok(StopMatching(store, id, duration, now)) else Err(NoMatchingEntry)
  }

  /** Creating with an id the table does not hold keeps ids unique. */
  lemma CreateKeepsIdsUnique(store: Store, user: Option<Id>, freshId: Id, taskId: Id, startTime: int)
    requires UniqueIds(store)
    requires !HasId(store, freshId)
    ensures CreateEntry(store, user, freshId, taskId, startTime).Ok? ==>
      UniqueIds(CreateEntry(store, user, freshId, taskId, startTime).value)
  {
    var r := CreateEntry(store, user, freshId, taskId, startTime);
    if r.Ok? {
      var s := r.value;
      forall i, j | 0 <= i < j < |s| ensures s[i].id != s[j].id {
        if j == |store| {
          assert s[i] == store[i];
        } else {
          assert s[i] == store[i] && s[j] == store[j];
        }
      }
    }
  }

  /** Every successful create adds one running timer, whatever is running
      already: the hook does not enforce a single active entry. */
  lemma {:induction false} CreateAddsActiveEntry(store: Store, user: Option<Id>, freshId: Id, taskId: Id, startTime: int)
    requires user.Some?
    ensures CreateEntry(store, user, freshId, taskId, startTime).Ok?
    ensures ActiveCount(CreateEntry(store, user, freshId, taskId, startTime).value) == ActiveCount(store) + 1
  {
    var s := CreateEntry(store, user, freshId, taskId, startTime).value;
    assert s == store + [s[|store|]];
    KeepAppend(store, [s[|store|]], Active);
  }

  /** The row `store[k]` split out of its table. */
  lemma SplitAt(store: Store, k: nat)
    requires k < |store|
    ensures store == store[..k] + [store[k]] + store[k + 1..]
  {
  }

  /** Stopping a running timer whose id is unique removes exactly one running
      timer from the table. */
  lemma {:induction false} StopRemovesActiveEntry(store: Store, k: nat, duration: int, now: int)
    requires UniqueIds(store)
    requires k < |store| && store[k].isActive
    ensures StopEntry(store, store[k].id, duration, now).Ok?
    ensures ActiveCount(StopEntry(store, store[k].id, duration, now).value) == ActiveCount(store) - 1
  {
    var id := store[k].id;
    assert HasId(store, id);
    var s := StopEntry(store, id, duration, now).value;
    SplitAt(store, k);
    SplitAt(s, k);
    assert s[..k] == store[..k];
    assert s[k + 1..] == store[k + 1..];
    KeepAppend(store[..k] + [store[k]], store[k + 1..], Active);
    KeepAppend(store[..k], [store[k]], Active);
    KeepAppend(s[..k] + [s[k]], s[k + 1..], Active);
    KeepAppend(s[..k], [s[k]], Active);
  }

  /** Listing order: by `start_time`, newest first. */
  predicate SortedByStartDesc(s: seq<TimeEntry>) {
    forall i, j :: 0 <= i < j < |s| ==> s[i].startTime >= s[j].startTime
  }

  /** `e` placed before the first entry that started no later than it. */
  function InsertByStartDesc(e: TimeEntry, s: seq<TimeEntry>): (r: seq<TimeEntry>)
    requires SortedByStartDesc(s)
    ensures SortedByStartDesc(r)
    ensures multiset(r) == multiset(s) + multiset{e}
    ensures |r| == |s| + 1
    ensures r[0] == e || (|s| > 0 && r[0] == s[0])
    decreases |s|
  {
    if |s| == 0 then [e]
    else if s[0].startTime <= e.startTime then [e] + s
    else
      assert s == [s[0]] + s[1..];
      [s[0]] + InsertByStartDesc(e, s[1..])
  }

  /** A stable sort by start time, newest first: among entries with the
      same start time the earlier one in `s` comes first. */
  function SortByStartDesc(s: seq<TimeEntry>): (r: seq<TimeEntry>)
    ensures SortedByStartDesc(r)
    ensures multiset(r) == multiset(s)
    ensures |r| == |s|
    decreases |s|
  {
    if |s| == 0 then []
    else
      assert s == [s[0]] + s[1..];
      InsertByStartDesc(s[0], SortByStartDesc(s[1..]))
  }

  /** Entries that started at time `t`: the ties a sort by start time has to
      break. */
  function StartsAt(t: int): TimeEntry -> bool {
    (e: TimeEntry) => e.startTime == t
  }

  /** Inserting `e` puts it ahead of every entry with its start time. */
  lemma {:induction false} InsertKeepsTies(e: TimeEntry, s: seq<TimeEntry>, t: int)
    requires SortedByStartDesc(s)
    ensures Keep(InsertByStartDesc(e, s), StartsAt(t)) == Keep([e], StartsAt(t)) + Keep(s, StartsAt(t))
    decreases |s|
  {
    var p := StartsAt(t);
    if |s| > 0 && s[0].startTime > e.startTime {
      var h, tail := s[0], s[1..];
      var rest := InsertByStartDesc(e, tail);
      assert s == [h] + tail;
      assert InsertByStartDesc(e, s) == [h] + rest;
      InsertKeepsTies(e, tail, t);
      KeepAppend([h], rest, p);
      KeepAppend([h], tail, p);
      KeepSingleton(h, p);
      KeepSingleton(e, p);
      SwapPastEmpty(Keep([h], p), Keep([e], p), Keep(tail, p));
    } else {
      KeepAppend([e], s, p);
    }
  }

  /** Two pieces of which one is empty can trade places. */
  lemma SwapPastEmpty<T>(a: seq<T>, b: seq<T>, c: seq<T>)
    requires a == [] || b == []
    ensures a + (b + c) == b + (a + c)
  {
  }

  /** The sort is stable: entries sharing a start time keep their order. */
  lemma {:induction false} SortIsStable(s: seq<TimeEntry>, t: int)
    ensures Keep(SortByStartDesc(s), StartsAt(t)) == Keep(s, StartsAt(t))
    decreases |s|
  {
    if |s| > 0 {
      SortIsStable(s[1..], t);
      InsertKeepsTies(s[0], SortByStartDesc(s[1..]), t);
      assert s == [s[0]] + s[1..];
      KeepAppend([s[0]], s[1..], StartsAt(t));
    }
  }

  /** The snapshot the hook hands to the views: all rows, newest start first.
      The table breaks ties between equal start times in no promised order;
      this is one admissible order. */
  function List(store: Store): (r: seq<TimeEntry>)
    ensures SortedByStartDesc(r)
    ensures multiset(r) == multiset(store)
  {
    SortByStartDesc(store)
  }
}

=== FILE: time_tracking.dfy ===
/** The timer view: its local state `{selectedTaskId, currentTime, isRunning,
    activeEntryId}`, one transition per event (a new snapshot of entries, a
    one-second tick, start, stop, pause, resume, choosing a task), the store
    writes those transitions issue, the per-task totals shown in the task
    picker, the `HH:MM:SS` clock and the recent-entries list.
    Wall-clock readings are parameters (`now`, in milliseconds). */
module TimeTracking {
  import opened Domain
  import opened Seqs
  import opened JsText
  import TimeEntries

  datatype TimerState = TimerState(
    selectedTaskId: Id,     // "" when no task is chosen
    currentTime: int,       // seconds shown on the clock
    isRunning: bool,
    activeEntryId: Option<Id>)

  /** The state the view mounts with. */
  const Initial: TimerState := TimerState("", 0, false, None)

  /** A request sent to the time-entry store. */
  datatype EntryWrite =
    | CreateWrite(taskId: Id, startTime: int)
    | StopWrite(id: Id, duration: int)

  datatype Transition = Transition(state: TimerState, writes: seq<EntryWrite>)

  // ---------------------------------------------------------------------------
  // Reconciliation with a snapshot of the store

  /** Index of the first active entry (`Array.prototype.find`). */
  function FirstActiveIndex(entries: seq<TimeEntry>): (k: Option<nat>)
    ensures k.Some? ==> k.value < |entries| && entries[k.value].isActive
    ensures k.Some? ==> forall j :: 0 <= j < k.value ==> !entries[j].isActive
    ensures k.None? <==> forall j :: 0 <= j < |entries| ==> !entries[j].isActive
    decreases |entries|
  {
    if |entries| == 0 then None
    else if entries[0].isActive then Some(0)
    else match FirstActiveIndex(entries[1..])
      case None => None
      case Some(i) => Some(i + 1)
  }

  /** Runs whenever the entries snapshot changes. When the snapshot holds an
      active entry, the first one takes over the timer: its id and task, a
      running clock, and the whole seconds elapsed since its start (floor of
      a millisecond difference over 1000). Otherwise nothing changes: there
      is no branch that clears a stale timer. */
  function Reconcile(st: TimerState, entries: seq<TimeEntry>, now: int): (r: TimerState)
    ensures (forall j :: 0 <= j < |entries| ==> !entries[j].isActive) ==> r == st
    ensures forall k :: 0 <= k < |entries| && entries[k].isActive && (forall j :: 0 <= j < k ==> !entries[j].isActive) ==>
      && r.activeEntryId == Some(entries[k].id)
      && r.selectedTaskId == entries[k].taskId
      && r.isRunning
      && r.currentTime * 1000 <= now - entries[k].startTime < r.currentTime * 1000 + 1000
  {
    match FirstActiveIndex(entries)
    case None => st
    case Some(k) =>
      var e := entries[k];
      TimerState(e.taskId, (now - e.startTime) / 1000, true, Some(e.id))
  }

  /** On the store's listing (newest start first), the entry reconciliation
      takes over is the most recently started active entry. */
  lemma ReconcileTakesLatestActive(st: TimerState, entries: seq<TimeEntry>, now: int)
    requires TimeEntries.SortedByStartDesc(entries)
    requires exists j :: 0 <= j < |entries| && entries[j].isActive
    ensures var r := Reconcile(st, entries, now);
      exists k :: 0 <= k < |entries| && entries[k].isActive && r.activeEntryId == Some(entries[k].id)
        && forall j :: 0 <= j < |entries| && entries[j].isActive ==> entries[j].startTime <= entries[k].startTime
  {
    var k := FirstActiveIndex(entries).value;
    assert forall j :: 0 <= j < |entries| && entries[j].isActive ==> k <= j;
  }

  // ---------------------------------------------------------------------------
  // Local events

  /** One firing of the one-second interval, which exists only while the
      timer runs. */
  function Tick(st: TimerState): (r: TimerState)
    ensures r.currentTime == st.currentTime + (if st.isRunning then 1 else 0)
    ensures r.(currentTime := st.currentTime) == st
  {
    if st.isRunning then st.(currentTime := st.currentTime + 1) else st
  }

  /** `n` ticks in a row. A paused timer ignores them all, and none of them
      starts or stops the timer. */
  function Ticks(st: TimerState, n: nat): (r: TimerState)
    ensures r.isRunning == st.isRunning
    ensures !st.isRunning ==> r == st
    decreases n
  {
    if n == 0 then st else Ticks(Tick(st), n - 1)
  }

  /** The clock counts one per tick while running and stands still while
      paused; nothing else moves. */
  lemma {:induction false} TicksCount(st: TimerState, n: nat)
    ensures Ticks(st, n).currentTime == st.currentTime + (if st.isRunning then n else 0)
    ensures Ticks(st, n).(currentTime := st.currentTime) == st
    decreases n
  {
    if n > 0 {
      TicksCount(Tick(st), n - 1);
    }
  }

  /** Start: without a chosen task, nothing. Otherwise ask the store for a new
      active entry starting now, run the clock from 0, and leave
      `activeEntryId` as it is: the new entry's id only arrives with the next
      snapshot. */
  function Start(st: TimerState, now: int): (t: Transition)
    ensures st.selectedTaskId == "" ==> t == Transition(st, [])
    ensures st.selectedTaskId != "" ==>
      && t.writes == [CreateWrite(st.selectedTaskId, now)]
      && t.state.isRunning && t.state.currentTime == 0
      && t.state.selectedTaskId == st.selectedTaskId
      && t.state.activeEntryId == st.activeEntryId
  {
    if st.selectedTaskId == "" then Transition(st, [])
    else Transition(st.(isRunning := true, currentTime := 0), [CreateWrite(st.selectedTaskId, now)])
  }

  /** Stop: send the clock's value as the duration of the known active entry
      (only if there is one), then clear the clock and the entry id whatever
      happened; the chosen task stays chosen. */
  function Stop(st: TimerState): (t: Transition)
    ensures !t.state.isRunning && t.state.currentTime == 0 && t.state.activeEntryId == None
    ensures t.state.selectedTaskId == st.selectedTaskId
    ensures |t.writes| <= 1
    ensures |t.writes| == 1 <==> st.activeEntryId.Some? && st.activeEntryId.value != ""
    ensures |t.writes| == 1 ==> t.writes[0] == StopWrite(st.activeEntryId.value, st.currentTime)
  {
    var writes := match st.activeEntryId
      case Some(id) => if id != "" then [StopWrite(id, st.currentTime)] else []
      case None => [];
    Transition(st.(isRunning := false, currentTime := 0, activeEntryId := None), writes)
  }

  /** Stopping twice writes once: the second stop finds no entry id. */
  lemma StopTwiceWritesOnce(st: TimerState)
    ensures Stop(Stop(st).state).writes == []
    ensures Stop(Stop(st).state).state == Stop(st).state
  {
  }

  function Pause(st: TimerState): (r: TimerState)
    ensures !r.isRunning && r.(isRunning := st.isRunning) == st
  {
    st.(isRunning := false)
  }

  function Resume(st: TimerState): (r: TimerState)
    ensures r.isRunning && r.(isRunning := st.isRunning) == st
  {
    st.(isRunning := true)
  }

  /** Pausing and resuming brings back a running timer exactly as it was:
      the entry in the store is never told about the pause. */
  lemma PauseResumeRoundTrip(st: TimerState)
    requires st.isRunning
    ensures Resume(Pause(st)) == st
  {
  }

  /** The picker's filter: a task that is not completed. */
  predicate NotCompleted(t: Task) {
    t.status != Completed
  }

  /** The tasks the picker offers: those not completed, in list order. */
  function ActiveTasks(tasks: seq<Task>): (r: seq<Task>)
    ensures forall i :: 0 <= i < |r| ==> r[i] in tasks && r[i].status != Completed
    ensures forall i :: 0 <= i < |tasks| && tasks[i].status != Completed ==> tasks[i] in r
  {
    Keep(tasks, NotCompleted)
  }

  /** The picker lists the offered tasks of a list split in two as those of
      the first part followed by those of the second: list order is kept. */
  lemma ActiveTasksAppend(a: seq<Task>, b: seq<Task>)
    ensures ActiveTasks(a + b) == ActiveTasks(a) + ActiveTasks(b)
  {
    KeepAppend(a, b, NotCompleted);
  }

  /** A single task is offered once if it is not completed, else not at all. */
  lemma ActiveTasksSingleton(t: Task)
    ensures ActiveTasks([t]) == if t.status != Completed then [t] else []
  {
    KeepSingleton(t, NotCompleted);
  }

  predicate Offered(tasks: seq<Task>, taskId: Id) {
    exists i :: 0 <= i < |tasks| && tasks[i].status != Completed && tasks[i].id == taskId
  }

  /** Choosing a task in the picker: the picker is disabled while the timer
      runs and offers only tasks that are not completed. */
  function Select(st: TimerState, tasks: seq<Task>, taskId: Id): (r: TimerState)
    ensures !st.isRunning && Offered(tasks, taskId) ==> r == st.(selectedTaskId := taskId)
    ensures st.isRunning || !Offered(tasks, taskId) ==> r == st
  {
    if !st.isRunning && Offered(tasks, taskId) then st.(selectedTaskId := taskId) else st
  }

  /** Which buttons the view shows. */
  datatype Controls =
    | StartButton(enabled: bool)   // "Start Timer"
    | PauseAndStop
    | ResumeAndStop

  /** The start button is shown exactly when the timer is not running and
      the clock reads 0, so a timer paused before its first tick looks
      exactly like an idle one. */
  function ControlsFor(st: TimerState): (c: Controls)
    ensures c.StartButton? <==> !st.isRunning && st.currentTime == 0
    ensures c.StartButton? ==> (c.enabled <==> st.selectedTaskId != "")
    ensures c == PauseAndStop <==> st.isRunning
  {
    if !st.isRunning && st.currentTime == 0 then StartButton(st.selectedTaskId != "")
    else if st.isRunning then PauseAndStop
    else ResumeAndStop
  }

  /** Choosing an offered task on an idle timer enables the start button,
      and the start that follows asks the store for an entry of that task. */
  lemma SelectEnablesStart(st: TimerState, tasks: seq<Task>, taskId: Id, now: int)
    requires !st.isRunning && st.currentTime == 0
    requires Offered(tasks, taskId)
    ensures ControlsFor(Select(st, tasks, taskId)) == StartButton(taskId != "")
    ensures taskId != "" ==> Start(Select(st, tasks, taskId), now).writes == [CreateWrite(taskId, now)]
  {
  }

  /** After a stop the view always offers a fresh start. */
  lemma StopShowsStartButton(st: TimerState)
    ensures ControlsFor(Stop(st).state) == StartButton(st.selectedTaskId != "")
  {
  }

  // ---------------------------------------------------------------------------
  // The event loop

  datatype TimerEvent =
    | SnapshotChanged(entries: seq<TimeEntry>, now: int)
    | TickEvent
    | StartEvent(now: int)
    | StopEvent
    | PauseEvent
    | ResumeEvent
    | SelectEvent(tasks: seq<Task>, taskId: Id)

  /** One event, handed to the operation that handles it. Only start and
      stop talk to the store, each with at most one request; a tick, pause,
      resume or selection never changes the entry id. */
  function Step(st: TimerState, ev: TimerEvent): (t: Transition)
    ensures |t.writes| <= 1
    ensures |t.writes| == 1 ==> ev.StartEvent? || ev.StopEvent?
    ensures (ev.TickEvent? || ev.PauseEvent? || ev.ResumeEvent? || ev.SelectEvent?) ==>
      t.state.activeEntryId == st.activeEntryId
    ensures ev.SnapshotChanged? ==> t == Transition(Reconcile(st, ev.entries, ev.now), [])
    ensures ev.TickEvent? ==> t == Transition(Tick(st), [])
    ensures ev.StartEvent? ==> t == Start(st, ev.now)
    ensures ev.StopEvent? ==> t == Stop(st)
    ensures ev.PauseEvent? ==> t == Transition(Pause(st), [])
    ensures ev.ResumeEvent? ==> t == Transition(Resume(st), [])
    ensures ev.SelectEvent? ==> t == Transition(Select(st, ev.tasks, ev.taskId), [])
  {
    match ev
    case SnapshotChanged(entries, now) => Transition(Reconcile(st, entries, now), [])
    case TickEvent => Transition(Tick(st), [])
    case StartEvent(now) => Start(st, now)
    case StopEvent => Stop(st)
    case PauseEvent => Transition(Pause(st), [])
    case ResumeEvent => Transition(Resume(st), [])
    case SelectEvent(tasks, taskId) => Transition(Select(st, tasks, taskId), [])
  }

  /** A run of events: the final state and every request, in order. */
  function Run(st: TimerState, events: seq<TimerEvent>): (t: Transition)
    ensures |t.writes| <= |events|
    decreases |events|
  {
    if |events| == 0 then Transition(st, [])
    else
      var first := Step(st, events[0]);
      var rest := Run(first.state, events[1..]);
      Transition(rest.state, first.writes + rest.writes)
  }

  /** Running one event and then the rest. */
  lemma RunCons(st: TimerState, ev: TimerEvent, rest: seq<TimerEvent>)
    ensures var f := Step(st, ev); var r := Run(f.state, rest);
      Run(st, [ev] + rest) == Transition(r.state, f.writes + r.writes)
  {
    assert ([ev] + rest)[1..] == rest;
  }

  /** Running two stretches of events one after the other: the second starts
      from the state the first leaves, and the requests are concatenated. */
  lemma {:induction false} RunAppend(st: TimerState, a: seq<TimerEvent>, b: seq<TimerEvent>)
    ensures var ra := Run(st, a); var rb := Run(ra.state, b);
      Run(st, a + b) == Transition(rb.state, ra.writes + rb.writes)
    decreases |a|
  {
    if |a| == 0 {
      assert a + b == b;
    } else {
      var f := Step(st, a[0]);
      RunAppend(f.state, a[1..], b);
      RunAppendStep(st, a, b, f);
    }
  }

  /** A non-empty run is its first step followed by the run of the rest. */
  lemma RunUnfold(st: TimerState, events: seq<TimerEvent>)
    requires |events| > 0
    ensures var f := Step(st, events[0]); var r := Run(f.state, events[1..]);
      Run(st, events) == Transition(r.state, f.writes + r.writes)
  {
  }

  /** The inductive step of `RunAppend`, with the first event's transition
      taken as given. */
  lemma RunAppendStep(st: TimerState, a: seq<TimerEvent>, b: seq<TimerEvent>, f: Transition)
    requires |a| > 0 && f == Step(st, a[0])
    requires var ra := Run(f.state, a[1..]); var rb := Run(ra.state, b);
      Run(f.state, a[1..] + b) == Transition(rb.state, ra.writes + rb.writes)
    ensures var ra := Run(st, a); var rb := Run(ra.state, b);
      Run(st, a + b) == Transition(rb.state, ra.writes + rb.writes)
  {
    var ra := Run(f.state, a[1..]);
    var rb := Run(ra.state, b);
    var ab := a + b;
    assert ab[0] == a[0] && ab[1..] == a[1..] + b;
    RunUnfold(st, ab);
    RunUnfold(st, a);
    AppendAssoc(f.writes, ra.writes, rb.writes);
  }

  /** `n` firings of the interval. */
  function TickEvents(n: nat): (evs: seq<TimerEvent>)
    ensures |evs| == n && forall i :: 0 <= i < n ==> evs[i] == TickEvent
  {
    seq(n, _ => TickEvent)
  }

  /** Ticks through the event loop are the clock's ticks, and send nothing. */
  lemma {:induction false} RunTicks(st: TimerState, n: nat)
    ensures Run(st, TickEvents(n)) == Transition(Ticks(st, n), [])
    decreases n
  {
    if n > 0 {
      assert TickEvents(n) == [TickEvent] + TickEvents(n - 1);
      RunCons(st, TickEvent, TickEvents(n - 1));
      RunTicks(Tick(st), n - 1);
    }
  }

  // ---------------------------------------------------------------------------
  // Per-task totals

  /** The stopped entries of a task. */
  function OfTask(taskId: Id): TimeEntry -> bool {
    (e: TimeEntry) => e.taskId == taskId && !e.isActive
  }

  function TaskEntries(entries: seq<TimeEntry>, taskId: Id): (r: seq<TimeEntry>)
    ensures forall i :: 0 <= i < |r| ==> r[i] in entries && r[i].taskId == taskId && !r[i].isActive
    ensures forall i :: 0 <= i < |entries| && entries[i].taskId == taskId && !entries[i].isActive ==> entries[i] in r
  {
    Keep(entries, OfTask(taskId))
  }

  /** Seconds tracked on a task: the stored durations of its stopped
      entries. */
  function TaskTotal(entries: seq<TimeEntry>, taskId: Id): (r: int)
    ensures NonNegativeDurations(entries) ==> r >= 0
  {
    TotalDuration(TaskEntries(entries, taskId))
  }

  /** Totals add up over a snapshot split in two. */
  lemma TaskTotalAppend(a: seq<TimeEntry>, b: seq<TimeEntry>, taskId: Id)
    ensures TaskTotal(a + b, taskId) == TaskTotal(a, taskId) + TaskTotal(b, taskId)
  {
    KeepAppend(a, b, OfTask(taskId));
    TotalDurationAppend(TaskEntries(a, taskId), TaskEntries(b, taskId));
  }

  /** One entry's share of a task total: its duration if it is a stopped entry
      of that task, else nothing; in particular a running entry adds nothing. */
  lemma TaskTotalCons(e: TimeEntry, rest: seq<TimeEntry>, taskId: Id)
    ensures TaskTotal([e] + rest, taskId)
      == (if e.taskId == taskId && !e.isActive then e.duration else 0) + TaskTotal(rest, taskId)
  {
    TaskTotalAppend([e], rest, taskId);
    assert TaskEntries([e], taskId) == if e.taskId == taskId && !e.isActive then [e] else [];
  }

  /** Stopping the running entry `store[k]` (ids unique) adds the duration
      sent to its task's total and leaves every other task's total alone. */
  lemma StopAddsToTaskTotal(store: TimeEntries.Store, k: nat, duration: int, now: int, taskId: Id)
    requires TimeEntries.UniqueIds(store)
    requires k < |store| && store[k].isActive
    ensures TimeEntries.StopEntry(store, store[k].id, duration, now).Ok?
    ensures TaskTotal(TimeEntries.StopEntry(store, store[k].id, duration, now).value, taskId)
      == TaskTotal(store, taskId) + (if store[k].taskId == taskId then duration else 0)
  {
    var id := store[k].id;
    assert TimeEntries.HasId(store, id);
    var s := TimeEntries.StopEntry(store, id, duration, now).value;
    TimeEntries.SplitAt(store, k);
    TimeEntries.SplitAt(s, k);
    assert s[..k] == store[..k];
    assert s[k + 1..] == store[k + 1..];
    TaskTotalAppend(store[..k] + [store[k]], store[k + 1..], taskId);
    TaskTotalAppend(store[..k], [store[k]], taskId);
    TaskTotalAppend(s[..k] + [s[k]], s[k + 1..], taskId);
    TaskTotalAppend(s[..k], [s[k]], taskId);
    TaskTotalCons(store[k], [], taskId);
    TaskTotalCons(s[k], [], taskId);
    assert [store[k]] + [] == [store[k]];
    assert [s[k]] + [] == [s[k]];
  }

  // ---------------------------------------------------------------------------
  // The HH:MM:SS clock

  /** Hours, minutes and seconds as the view computes them: floor division
      for hours, JavaScript's `%` for the rest. */
  function ClockFields(seconds: int): (f: (int, int, int))
    ensures seconds >= 0 ==>
      && f.0 >= 0 && 0 <= f.1 < 60 && 0 <= f.2 < 60
      && f.0 * 3600 + f.1 * 60 + f.2 == seconds
  {
    var h := seconds / 3600;
    var m := TruncRem(seconds, 3600) / 60;
    var s := TruncRem(seconds, 60);
    if seconds >= 0 then
      assert seconds == 3600 * h + seconds % 3600;
      assert seconds % 3600 == 60 * m + (seconds % 3600) % 60;
      assert seconds % 60 == (seconds % 3600) % 60 by {
        assert seconds == 60 * (60 * h) + seconds % 3600;
      }
      (h, m, s)
    else
      (h, m, s)
  }

  /** A clock field: the number left-padded with '0' to two characters. */
  function Pad2(n: int): (s: string)
    ensures |s| == if |IntToString(n)| >= 2 then |IntToString(n)| else 2
    ensures n >= 0 ==> AllDigits(s) && DecimalValue(s) == n
  {
    var r := PadStart(IntToString(n), 2, '0');
    if n >= 0 then ZeroPaddedValue(n, 2); r else r
  }

  function FormatClock(seconds: int): string {
    var f := ClockFields(seconds);
    Pad2(f.0) + (":" + (Pad2(f.1) + (":" + Pad2(f.2))))
  }

  /** Index of the first ':' in `s`. */
  function FindColon(s: string): (k: Option<nat>)
    ensures k.Some? ==> k.value < |s| && s[k.value] == ':'
    ensures k.None? <==> ':' !in s
    decreases |s|
  {
    if |s| == 0 then None
    else if s[0] == ':' then Some(0)
    else match FindColon(s[1..])
      case None => None
      case Some(i) => Some(i + 1)
  }

  /** Reads an `H:M:S` string of three non-empty digit runs back into
      seconds; the inverse `ClockRoundTrip` proves the clock format against. */
  function ParseClock(s: string): Option<int> {
    match FindColon(s)
    case None => None
    case Some(i) => ParseMinutesSeconds(s[..i], s[i + 1..])
  }

  /** The part after the hours: `M:S`. */
  function ParseMinutesSeconds(h: string, rest: string): Option<int> {
    match FindColon(rest)
    case None => None
    case Some(j) => ParseFields(h, rest[..j], rest[j + 1..])
  }

  function ParseFields(h: string, m: string, sec: string): Option<int> {
    if h != [] && m != [] && sec != [] && AllDigits(h) && AllDigits(m) && AllDigits(sec)
    then Some(DecimalValue(h) * 3600 + DecimalValue(m) * 60 + DecimalValue(sec))
    else None
  }

  /** The first colon after a colon-free run is the one that ends it. */
  lemma {:induction false} FindColonAfterRun(a: string, rest: string)
    requires ':' !in a
    ensures FindColon(a + (":" + rest)) == Some(|a|)
    decreases |a|
  {
    if |a| > 0 {
      assert (a + (":" + rest))[1..] == a[1..] + (":" + rest);
      assert a == [a[0]] + a[1..];
      FindColonAfterRun(a[1..], rest);
    }
  }

  /** Hours are read up to the first colon. */
  lemma ParseHoursField(a: string, rest: string)
    requires ':' !in a
    ensures ParseClock(a + (":" + rest)) == ParseMinutesSeconds(a, rest)
  {
    var s := a + (":" + rest);
    FindColonAfterRun(a, rest);
    assert s[..|a|] == a;
    assert s[|a|..] == ":" + rest;
    assert s[|a| + 1..] == (":" + rest)[1..] == rest;
  }

  /** Minutes are read up to the next colon. */
  lemma ParseMinutesField(h: string, b: string, c: string)
    requires ':' !in b
    ensures ParseMinutesSeconds(h, b + (":" + c)) == ParseFields(h, b, c)
  {
    var s := b + (":" + c);
    FindColonAfterRun(b, c);
    assert s[..|b|] == b;
    assert s[|b|..] == ":" + c;
    assert s[|b| + 1..] == (":" + c)[1..] == c;
  }

  /** Splitting three colon-free runs joined by colons gives back the runs. */
  lemma ParseJoinedFields(a: string, b: string, c: string)
    requires ':' !in a && ':' !in b
    ensures ParseClock(a + (":" + (b + (":" + c)))) == ParseFields(a, b, c)
  {
    ParseHoursField(a, b + (":" + c));
    ParseMinutesField(a, b, c);
  }

  /** A digit string holds no colon. */
  lemma DigitsHaveNoColon(s: string)
    requires AllDigits(s)
    ensures ':' !in s
  {
  }

  /** Three non-empty digit runs are read as hours, minutes and seconds. */
  lemma DigitFieldsParse(a: string, b: string, c: string, h: int, m: int, sec: int)
    requires a != [] && b != [] && c != []
    requires AllDigits(a) && AllDigits(b) && AllDigits(c)
    requires DecimalValue(a) == h && DecimalValue(b) == m && DecimalValue(c) == sec
    ensures ParseFields(a, b, c) == Some(h * 3600 + m * 60 + sec)
  {
  }

  /** Padded non-negative fields read back as their values. */
  lemma PaddedFieldsParse(h: int, m: int, sec: int, total: int)
    requires h >= 0 && m >= 0 && sec >= 0
    requires total == h * 3600 + m * 60 + sec
    ensures ParseFields(Pad2(h), Pad2(m), Pad2(sec)) == Some(total)
  {
    DigitFieldsParse(Pad2(h), Pad2(m), Pad2(sec), h, m, sec);
  }

  /** Under 100 hours the clock is exactly `HH:MM:SS`: eight characters, as
      every field is below 100 and padded to two. */
  lemma ClockWidth(seconds: int)
    requires 0 <= seconds < 360000
    ensures |FormatClock(seconds)| == 8
  {
    var f := ClockFields(seconds);
    assert f.0 < 100;
    SmallDecimalWidth(f.0);
    SmallDecimalWidth(f.1);
    SmallDecimalWidth(f.2);
    assert |Pad2(f.0)| == 2 && |Pad2(f.1)| == 2 && |Pad2(f.2)| == 2;
  }

  /** The clock of a non-negative number of seconds reads back as that
      number: fields are digits only, at least two of them, and minutes and
      seconds stay below 60. */
  lemma ClockRoundTrip(seconds: int)
    requires seconds >= 0
    ensures |FormatClock(seconds)| >= 8
    ensures seconds < 360000 ==> |FormatClock(seconds)| == 8
    ensures ParseClock(FormatClock(seconds)) == Some(seconds)
  {
    var f := ClockFields(seconds);
    var a, b, c := Pad2(f.0), Pad2(f.1), Pad2(f.2);
    var s := a + (":" + (b + (":" + c)));
    assert s == FormatClock(seconds);
    DigitsHaveNoColon(a);
    DigitsHaveNoColon(b);
    ParseJoinedFields(a, b, c);
    assert ParseClock(s) == ParseFields(a, b, c);
    PaddedFieldsParse(f.0, f.1, f.2, seconds);
    if seconds < 360000 {
      ClockWidth(seconds);
    }
  }

  // ---------------------------------------------------------------------------
  // Recent entries

  /** Stopped entries, newest start first. */
  function History(entries: seq<TimeEntry>): (r: seq<TimeEntry>)
    ensures |r| == |Keep(entries, Inactive)|
    ensures multiset(r) == multiset(Keep(entries, Inactive))
    ensures TimeEntries.SortedByStartDesc(r)
    ensures forall i :: 0 <= i < |r| ==> !r[i].isActive && r[i] in entries
  {
    var kept := Keep(entries, Inactive);
    var r := TimeEntries.SortByStartDesc(kept);
    assert forall i :: 0 <= i < |r| ==> r[i] in multiset(kept);
    r
  }

  /** `sort` is stable, so stopped entries that started at the same time
      appear in snapshot order; with the multiset and the order by start
      time this fixes the history completely. */
  lemma HistoryKeepsTies(entries: seq<TimeEntry>, t: int)
    ensures Keep(History(entries), TimeEntries.StartsAt(t)) == Keep(Keep(entries, Inactive), TimeEntries.StartsAt(t))
  {
    TimeEntries.SortIsStable(Keep(entries, Inactive), t);
  }

  /** The history list: the ten stopped entries that started last (all of
      them when there are fewer), newest first. */
  function RecentEntries(entries: seq<TimeEntry>): (r: seq<TimeEntry>)
    ensures |r| == if |Keep(entries, Inactive)| < 10 then |Keep(entries, Inactive)| else 10
    ensures TimeEntries.SortedByStartDesc(r)
    ensures forall i :: 0 <= i < |r| ==> !r[i].isActive && r[i] in entries
    ensures r == History(entries)[..|r|]
  {
    var h := History(entries);
    h[..if |h| < 10 then |h| else 10]
  }

  /** The "no time entries yet" message shows exactly when the history is
      empty, i.e. when every entry is still running. */
  function ShowsNoHistory(entries: seq<TimeEntry>): (b: bool)
    ensures b <==> RecentEntries(entries) == []
    ensures b <==> forall i :: 0 <= i < |entries| ==> entries[i].isActive
  {
    |Keep(entries, Inactive)| == 0
  }

  // ---------------------------------------------------------------------------
  // Scenarios across the view and the store

  /** A stop issued before the snapshot that carries the new entry arrives
      sends nothing: the entry the start created stays active in the store,
      and the next snapshot brings the timer back, running. */
  lemma StopBeforeSnapshotLeavesEntryRunning(st: TimerState, now: int, later: int,
                                             store: TimeEntries.Store, user: Id, freshId: Id)
    requires st.selectedTaskId != "" && st.activeEntryId == None
    ensures Start(st, now).writes == [CreateWrite(st.selectedTaskId, now)]
    ensures Stop(Start(st, now).state).writes == []
    ensures var s := TimeEntries.CreateEntry(store, Some(user), freshId, st.selectedTaskId, now);
      && s.Ok?
      && TimeEntries.ActiveCount(s.value) == TimeEntries.ActiveCount(store) + 1
      && Reconcile(Stop(Start(st, now).state).state, TimeEntries.List(s.value), later).isRunning
  {
    var s := TimeEntries.CreateEntry(store, Some(user), freshId, st.selectedTaskId, now);
    TimeEntries.CreateAddsActiveEntry(store, Some(user), freshId, st.selectedTaskId, now);
    var snap := TimeEntries.List(s.value);
    var e := s.value[|store|];
    assert e in multiset(snap);
    var k :| 0 <= k < |snap| && snap[k] == e;
    var k0 := FirstActiveIndex(snap);
    assert k0.Some?;
  }

  /** A timer paused before its first tick shows the start button again, so a
      second start asks the store for a second active entry while the first
      is still running: two creates, two running timers in the store. */
  lemma PausedAtZeroStartsTwice(st: TimerState, now1: int, now2: int,
                                store: TimeEntries.Store, user: Id, id1: Id, id2: Id)
    requires st.selectedTaskId != ""
    ensures var t1 := Start(st, now1);
      && ControlsFor(Pause(t1.state)) == StartButton(true)
      && Start(Pause(t1.state), now2).writes == [CreateWrite(st.selectedTaskId, now2)]
    ensures var s1 := TimeEntries.CreateEntry(store, Some(user), id1, st.selectedTaskId, now1).value;
      var s2 := TimeEntries.CreateEntry(s1, Some(user), id2, st.selectedTaskId, now2).value;
      TimeEntries.ActiveCount(s2) == TimeEntries.ActiveCount(store) + 2
  {
    TimeEntries.CreateAddsActiveEntry(store, Some(user), id1, st.selectedTaskId, now1);
    var s1 := TimeEntries.CreateEntry(store, Some(user), id1, st.selectedTaskId, now1).value;
    TimeEntries.CreateAddsActiveEntry(s1, Some(user), id2, st.selectedTaskId, now2);
  }

  /** Any snapshot that holds an active entry revives a paused timer, with the
      clock recomputed from the entry's start time rather than the paused
      reading. */
  lemma SnapshotRevivesPausedTimer(st: TimerState, entries: seq<TimeEntry>, now: int)
    requires !st.isRunning
    requires exists j :: 0 <= j < |entries| && entries[j].isActive
    ensures Reconcile(st, entries, now).isRunning
    ensures Reconcile(st, entries, now).currentTime
      == (now - entries[FirstActiveIndex(entries).value].startTime) / 1000
  {
  }

  /** A timer picked up from a snapshot and stopped at `now` sends the
      whole seconds elapsed since that entry's start as its duration. */
  lemma ReconcileThenStopSendsElapsed(st: TimerState, snap: seq<TimeEntry>, now: int, k: nat)
    requires k < |snap| && snap[k].isActive && snap[k].id != ""
    requires forall j :: 0 <= j < k ==> !snap[j].isActive
    ensures Stop(Reconcile(st, snap, now)).writes == [StopWrite(snap[k].id, (now - snap[k].startTime) / 1000)]
  {
    var r := Reconcile(st, snap, now);
    assert r.activeEntryId == Some(snap[k].id);
    assert r.currentTime == (now - snap[k].startTime) / 1000;
  }

  /** Every entry of a listing is a row of the store. */
  lemma ListedRow(store: TimeEntries.Store, snap: seq<TimeEntry>, k: nat) returns (i: nat)
    requires multiset(snap) == multiset(store)
    requires k < |snap|
    ensures i < |store| && store[i] == snap[k]
  {
    assert snap[k] in multiset(store);
    i :| 0 <= i < |store| && store[i] == snap[k];
  }

  /** End to end: a listing of the store (any order of its rows) picked up by
      reconciliation and then stopped adds exactly the elapsed whole seconds
      to the entry's task total. */
  lemma ReconcileThenStopRecordsElapsed(st: TimerState, store: TimeEntries.Store, snap: seq<TimeEntry>, now: int, k: nat)
    requires TimeEntries.UniqueIds(store)
    requires forall j :: 0 <= j < |store| ==> store[j].id != ""
    requires multiset(snap) == multiset(store)
    requires k < |snap| && snap[k].isActive
    requires forall j :: 0 <= j < k ==> !snap[j].isActive
    ensures var elapsed := (now - snap[k].startTime) / 1000;
      && Stop(Reconcile(st, snap, now)).writes == [StopWrite(snap[k].id, elapsed)]
      && TimeEntries.StopEntry(store, snap[k].id, elapsed, now).Ok?
      && TaskTotal(TimeEntries.StopEntry(store, snap[k].id, elapsed, now).value, snap[k].taskId)
         == TaskTotal(store, snap[k].taskId) + elapsed
  {
    var i := ListedRow(store, snap, k);
    ReconcileThenStopSendsElapsed(st, snap, now, k);
    StopAddsToTaskTotal(store, i, (now - snap[k].startTime) / 1000, now, snap[k].taskId);
  }
  // ---------------------------------------------------------------------------
  // Scenarios through the event loop

  /** From mount: choose an offered task, start, let a second pass and stop
      before any snapshot arrives. The create is the only request, since the
      stop has no entry id to send; the timer is idle again with the task
      still chosen. */
  lemma PickStartTickStopWritesOnlyCreate(tasks: seq<Task>, taskId: Id, t0: int)
    requires Offered(tasks, taskId) && taskId != ""
    ensures var t := Run(Initial, [SelectEvent(tasks, taskId), StartEvent(t0), TickEvent, StopEvent]);
      && t.writes == [CreateWrite(taskId, t0)]
      && t.state == Initial.(selectedTaskId := taskId)
  {
    var s1 := Select(Initial, tasks, taskId);
    var s2 := Start(s1, t0).state;
    var s3 := Tick(s2);
    RunCons(s3, StopEvent, []);
    RunCons(s2, TickEvent, [StopEvent]);
    RunCons(s1, StartEvent(t0), [TickEvent, StopEvent]);
    RunCons(Initial, SelectEvent(tasks, taskId), [StartEvent(t0), TickEvent, StopEvent]);
  }

  /** The opening of a tracked session: choose an offered task, start, and
      receive the snapshot in which `snap[k]` is the first running entry.
      The create is sent and the timer now runs on that entry. */
  lemma {:induction false} OpenSession(tasks: seq<Task>, taskId: Id, t0: int, snap: seq<TimeEntry>, now: int, k: nat)
    requires Offered(tasks, taskId) && taskId != ""
    requires k < |snap| && snap[k].isActive
    requires forall j :: 0 <= j < k ==> !snap[j].isActive
    ensures var t := Run(Initial, [SelectEvent(tasks, taskId), StartEvent(t0), SnapshotChanged(snap, now)]);
      && t.writes == [CreateWrite(taskId, t0)]
      && t.state == TimerState(snap[k].taskId, (now - snap[k].startTime) / 1000, true, Some(snap[k].id))
  {
    var s1 := Select(Initial, tasks, taskId);
    var s2 := Start(s1, t0).state;
    RunCons(s2, SnapshotChanged(snap, now), []);
    RunCons(s1, StartEvent(t0), [SnapshotChanged(snap, now)]);
    RunCons(Initial, SelectEvent(tasks, taskId), [StartEvent(t0), SnapshotChanged(snap, now)]);
    assert FirstActiveIndex(snap) == Some(k);
  }

  /** Extending a run whose outcome is known by a stretch whose outcome is
      known. */
  lemma RunThen(st: TimerState, a: seq<TimerEvent>, b: seq<TimerEvent>, mid: TimerState, wa: seq<EntryWrite>, last: TimerState, wb: seq<EntryWrite>)
    requires Run(st, a) == Transition(mid, wa)
    requires Run(mid, b) == Transition(last, wb)
    ensures Run(st, a + b) == Transition(last, wa + wb)
  {
    RunAppend(st, a, b);
  }

  /** A running timer through `n` ticks, a pause and a resume, and `m` more
      ticks: nothing is sent and the clock has gained exactly `n + m`. */
  lemma {:induction false} TicksAroundPause(st: TimerState, n: nat, m: nat)
    requires st.isRunning
    ensures Run(st, TickEvents(n) + [PauseEvent, ResumeEvent] + TickEvents(m))
      == Transition(st.(currentTime := st.currentTime + n + m), [])
  {
    RunTicks(st, n);
    TicksCount(st, n);
    var s1 := Ticks(st, n);
    RunCons(Resume(Pause(s1)), ResumeEvent, []);
    RunCons(s1, PauseEvent, [ResumeEvent]);
    RunTicks(s1, m);
    TicksCount(s1, m);
    RunAppend(st, TickEvents(n), [PauseEvent, ResumeEvent]);
    RunAppend(st, TickEvents(n) + [PauseEvent, ResumeEvent], TickEvents(m));
  }

  /** The session up to the stop: the create is the only request so far, and
      the timer runs on the snapshot's entry with the ticks counted. */
  lemma {:induction false} TrackedSessionBeforeStop(tasks: seq<Task>, taskId: Id, t0: int,
                                                    snap: seq<TimeEntry>, now: int, k: nat, n: nat, m: nat)
    requires Offered(tasks, taskId) && taskId != ""
    requires k < |snap| && snap[k].isActive
    requires forall j :: 0 <= j < k ==> !snap[j].isActive
    ensures Run(Initial, [SelectEvent(tasks, taskId), StartEvent(t0), SnapshotChanged(snap, now)]
                         + (TickEvents(n) + [PauseEvent, ResumeEvent] + TickEvents(m)))
      == Transition(TimerState(snap[k].taskId, (now - snap[k].startTime) / 1000 + n + m, true, Some(snap[k].id)),
                    [CreateWrite(taskId, t0)])
  {
    OpenSession(tasks, taskId, t0, snap, now, k);
    var s3 := TimerState(snap[k].taskId, (now - snap[k].startTime) / 1000, true, Some(snap[k].id));
    TicksAroundPause(s3, n, m);
    RunThen(Initial, [SelectEvent(tasks, taskId), StartEvent(t0), SnapshotChanged(snap, now)],
            TickEvents(n) + [PauseEvent, ResumeEvent] + TickEvents(m),
            s3, [CreateWrite(taskId, t0)], s3.(currentTime := s3.currentTime + n + m), []);
  }

  /** A running timer paused for `n` interval periods and then resumed for
      `m`: nothing is sent, and only the `m` ticks after the resume count. */
  lemma {:induction false} PausedTicksDoNotCount(st: TimerState, n: nat, m: nat)
    requires st.isRunning
    ensures Run(st, [PauseEvent] + TickEvents(n) + [ResumeEvent] + TickEvents(m))
      == Transition(st.(currentTime := st.currentTime + m), [])
  {
    var paused := Pause(st);
    RunCons(st, PauseEvent, []);
    RunTicks(paused, n);
    RunThen(st, [PauseEvent], TickEvents(n), paused, [], paused, []);
    RunCons(paused, ResumeEvent, []);
    assert Resume(paused) == st;
    RunThen(st, [PauseEvent] + TickEvents(n), [ResumeEvent], paused, [], st, []);
    RunTicks(st, m);
    TicksCount(st, m);
    RunThen(st, [PauseEvent] + TickEvents(n) + [ResumeEvent], TickEvents(m), st, [], st.(currentTime := st.currentTime + m), []);
  }

  /** Two events the loop shrugs off: a snapshot without a running entry
      (nothing clears a stale timer) and a choice in the picker while the
      timer runs (the picker is disabled). */
  lemma IgnoredEvents(st: TimerState, entries: seq<TimeEntry>, now: int, tasks: seq<Task>, taskId: Id)
    ensures (forall j :: 0 <= j < |entries| ==> !entries[j].isActive) ==>
      Run(st, [SnapshotChanged(entries, now)]) == Transition(st, [])
    ensures st.isRunning ==> Run(st, [SelectEvent(tasks, taskId)]) == Transition(st, [])
  {
    RunCons(st, SnapshotChanged(entries, now), []);
    RunCons(st, SelectEvent(tasks, taskId), []);
  }

  /** A whole tracked session through the event loop: choose a task, start,
      the snapshot holding the new entry arrives, `n` seconds pass, the timer
      is paused and resumed, `m` more seconds pass, and it is stopped. Two
      requests go out: the create, then a stop of the snapshot's entry with
      the seconds elapsed at the snapshot plus every tick counted since. */
  lemma {:induction false} TrackedSessionSendsElapsed(tasks: seq<Task>, taskId: Id, t0: int,
                                                      snap: seq<TimeEntry>, now: int, k: nat, n: nat, m: nat)
    requires Offered(tasks, taskId) && taskId != ""
    requires k < |snap| && snap[k].isActive && snap[k].id != ""
    requires forall j :: 0 <= j < k ==> !snap[j].isActive
    ensures Run(Initial, [SelectEvent(tasks, taskId), StartEvent(t0), SnapshotChanged(snap, now)]
                         + (TickEvents(n) + [PauseEvent, ResumeEvent] + TickEvents(m)) + [StopEvent]).writes
      == [CreateWrite(taskId, t0), StopWrite(snap[k].id, (now - snap[k].startTime) / 1000 + n + m)]
  {
    var before := [SelectEvent(tasks, taskId), StartEvent(t0), SnapshotChanged(snap, now)]
                  + (TickEvents(n) + [PauseEvent, ResumeEvent] + TickEvents(m));
    var s4 := TimerState(snap[k].taskId, (now - snap[k].startTime) / 1000 + n + m, true, Some(snap[k].id));
    TrackedSessionBeforeStop(tasks, taskId, t0, snap, now, k, n, m);
    RunCons(s4, StopEvent, []);
    RunThen(Initial, before, [StopEvent], s4, [CreateWrite(taskId, t0)], Stop(s4).state, Stop(s4).writes);
  }
}
